=== FILE: README.md ===
# MTH5 summary tables and group containers, in Dafny

This project models the container layer of MTH5, an HDF5-based format for
magnetotelluric data, as written in `mth5/mth5_groups.py`.

- **Summary tables.** Every group of the file (survey, stations, station,
  run, reports, standards, filters) may hold a summary table. It is a
  resizable one-dimensional HDF5 dataset with a compound numpy dtype.
- **`MTH5Table` (module `Summary`).** The wrapper around that dataset:
  - `check_dtypes`: compares dtypes;
  - `nrows`: the row count;
  - `add_row`: appends a row or overwrites one at an index;
  - `locate`: returns the indices of the rows meeting a test.
- **Group child rules (module `Groups`):**
  - `_class_name` and the `mth5_type` tag derived from it;
  - each class's summary-table defaults and `initialize_summary_table`;
  - `add_station` / `get_station` and `add_run` / `get_run`;
  - `add_channel` with `ChannelDataset.table_entry`.
- **`StandardsGroup.summary_table_from_dict` (module `StandardsTable`).**
  Fills the standards table from a dictionary of attribute descriptions.

Everything is a pure function on immutable values.

- **Tables.** A table is a layout (the compound dtype as an ordered list of
  named, typed fields), a sequence of rows, and the `max_shape` bound.
- **Groups.** A group is a map from member names to nodes. Its summary
  table is the dataset member named `Summary`.
- **Failures.** Python raises exceptions; here every operation returns a
  `Result`. An operation that changes a container returns the container as
  it stands after the call together with that result (`Change`). Several of
  them have already changed the container when they raise:
  - `add_channel` creates the dataset before it checks the channel type;
  - `summary_table_from_dict` keeps the rows it appended before a failure.

numpy's fixed-width byte fields are modelled in module `Text`:
- str is encoded as ASCII, and other text raises `UnicodeEncodeError`;
- text is cut silently to the field width;
- trailing NUL bytes are dropped on reading.

Time parsing is a parameter, `parse: bytes -> Option<Time>`. The empty byte
string is NaT (not-a-time), which never compares true. A cell that does not
parse makes `astype(np.datetime64)` raise `ValueError`.

numpy compares byte strings without their trailing NUL bytes, and a byte
cell never ends in NUL when it is read back; the model's comparisons and
cells do the same.

What the code does with summary tables, as modelled:
- Rows are only appended or overwritten; nothing removes a row.
- `add_station` and `add_run` append no row to the parent's summary table.
- The Run summary layout is `component S5, start S32, end S32,
  n_samples int, measurement_type S12, units S25`.
- A freshly initialized summary table holds one default row, because it is
  created with shape `(1,)`. So the first appended row lands at index 1.
- `add_station` does not create a summary table for the new station.
  `add_run` does create one, through `initialize_group`.
- The docstring of `locate` calls `be` "between or equal to"; the code
  selects strictly between the bounds, and so does the model.

## Model

| member | source | states |
|---|---|---|
| Summary.Create | mth5/mth5_groups.py:182-186 | creating the dataset with shape (1,) gives a valid table of the given dtype and `max_shape` holding exactly one row of fill values |
| Summary.CheckDtypes | mth5/mth5_groups.py:699-707 | true exactly when the two layouts agree field by field (same names, same types, same order) |
| Summary.AddRow | mth5/mth5_groups.py:774-813 | a row of another dtype raises `ValueError`. Without an index the row is appended at the old `nrows` and earlier rows are kept; growth past `max_shape` raises `ValueError`. With an index only that row is overwritten and the count is kept; an index past the end raises `IndexError`. A failure leaves the table unchanged, and a valid table stays valid |
| Summary.FirstAppendLandsAtOne | mth5/mth5_groups.py:182-186 | the first row appended to a new table gets index 1, after the default row |
| Summary.OverwriteIdempotent | mth5/mth5_groups.py:803-809 | writing the same row at the same index twice is the same as writing it once |
| SummaryFacts.AddRowCountsRows | mth5/mth5_groups.py:713-715 | `nrows` after `add_row`: an append returns the old `nrows` and raises it by one; an overwrite or a failure keeps it |
| Summary.TestNamed | mth5/mth5_groups.py:750-770 | `eq`, `lt`, `le`, `gt`, `ge` select equal, less, less-or-equal, greater, greater-or-equal, `be` selects between, and every other name is refused |
| Summary.Select | mth5/mth5_groups.py:751-768 | `np.where(mask)[0]`: strictly ascending indices, each in range, and an index is present exactly when its key meets the criterion |
| Summary.FieldIndex | mth5/mth5_groups.py:744-748 | finds the field with the column's name; none exactly when no field has that name |
| Summary.ColumnKeys | mth5/mth5_groups.py:744-748 | an ordinary column is always read, each key being the cell itself; a time column is read exactly when every cell is a byte string that is empty or parses, each key being the cell's instant |
| Summary.Probe | mth5/mth5_groups.py:740-770 | the error order of `locate`: a non-ASCII str value raises `UnicodeEncodeError`, then an unknown column raises `ValueError`. On success the test name is known and the keys are the column's cells; a comparison compares against the value (its bytes for a str, its instant on a time column); `be` had at least two items, compared against the first two, converted as a scalar is when corrected and as given when as written; the first bound is read and ordered against the column before the second is read |
| Summary.BoundKey | mth5/mth5_groups.py:767-768 | a bound of `be`: as written, a str bound raises `TypeError` and any other is compared as given; converted, it is compared as a scalar value would be |
| Summary.Locate | mth5/mth5_groups.py:717-772 | `locate` with `be` bounds converted like a scalar value: on success, exactly the ascending indices of the rows whose cell meets the test |
| Summary.LocateAsWritten | mth5/mth5_groups.py:717-772 | `locate` as written (bounds of `be` unconverted): on success, exactly the ascending indices of the rows meeting the test |
| SummaryFacts.BytesLessIrreflexive | mth5/mth5_groups.py:753-759 | numpy's byte order never puts a byte string before itself |
| SummaryFacts.EqualKeysUnordered | mth5/mth5_groups.py:753-768 | keys that compare equal are not strictly ordered either way |
| SummaryFacts.LocateEqOnRawColumn | mth5/mth5_groups.py:748-752 | `eq` on an ordinary column selects exactly the rows whose cell equals the value |
| SummaryFacts.LocateCompareOnRawColumn | mth5/mth5_groups.py:748-759 | on an ordinary column, each of the five comparisons with a value numpy can order against the column succeeds and selects exactly the rows whose cell compares to the value as the test names |
| SummaryFacts.LocateBetweenOnRawColumn | mth5/mth5_groups.py:760-768 | on an ordinary column, `be` with two orderable bounds succeeds and selects exactly the rows whose cell lies strictly between them |
| SummaryFacts.LocateCompareOnTimeColumn | mth5/mth5_groups.py:744-759 | on a time column whose cells all parse, each comparison with a value that parses succeeds and compares instants |
| SummaryFacts.TrailingNulsIgnored | mth5/mth5_groups.py:750-751 | searching a column holding `b'a'` for `b'a\x00'` finds the row, as numpy ignores trailing NULs |
| SummaryFacts.LocateStrIsBytes | mth5/mth5_groups.py:740-741 | a str value is searched for as its ASCII bytes, whatever the test |
| SummaryFacts.LocateTimeBySameInstant | mth5/mth5_groups.py:744-746 | on a time column, two spellings of the same instant locate the same rows |
| SummaryFacts.AppendThenLocate | mth5/mth5_groups.py:803-813 | after an append, `eq` on the new row's own cell finds the new index |
| SummaryFacts.BetweenExcludesBounds | mth5/mth5_groups.py:767-768 | `be` is exclusive at both bounds: every selected cell lies strictly between them and equals neither |
| SummaryFacts.UnknownTestRaises | mth5/mth5_groups.py:769-770 | every other test name raises, including `bt`, which the docstring documents; once the value and an ordinary column pass the earlier steps it is the `ValueError` "not understood" |
| SummaryFacts.BetweenNeedsList | mth5/mth5_groups.py:760-765 | `be` with a scalar value raises; once the value and an ordinary column pass the earlier steps it is the `ValueError` asking for a pair |
| SummaryFacts.LocateAgreesOffBetween | mth5/mth5_groups.py:750-759 | the correction of `be` changes no other test |
| SummaryFacts.BetweenOnTimeColumnRaisesAsWritten | mth5/mth5_groups.py:744-746 | as written, `be` on a time column raises, because the whole list goes to `np.datetime64`; converted, the same search finds the row |
| SummaryFacts.BetweenFirstBoundComparedFirstAsWritten | mth5/mth5_groups.py:767-768 | as written on a non-time column, `be` with an empty list raises `IndexError`; a first bound that is a str or cannot be ordered against the column raises `TypeError`, even with no second bound; a single orderable bound raises `IndexError` |
| SummaryFacts.BetweenStrBoundsRaiseAsWritten | mth5/mth5_groups.py:740-741 | as written, str bounds of `be` on a byte column raise `TypeError`; converted, they select the row between them |
| Text.EncodeAscii | mth5/mth5_groups.py:740-741 | str to bytes is defined exactly for ASCII text and keeps the length |
| Text.EncodeDecode | mth5/mth5_groups.py:740-741 | decoding the ASCII encoding of a text gives the text back |
| Text.AsBytes | mth5/mth5_groups.py:740-741 | `np.bytes_(s)`: defined exactly for ASCII text; the bytes are the codes of the text's characters, less the NULs at its end |
| Text.StripNul | mth5/mth5_groups.py:748 | reading a byte field drops exactly the trailing NULs: a prefix, with only NULs after it and no NUL at its end |
| Text.Truncate | mth5/mth5_groups.py:441-443 | storing into an `S<width>` field keeps exactly the first `width` bytes, or all of them when they fit |
| Text.StoreText | mth5/mth5_groups.py:441-443 | storing a str in an `S<width>` field succeeds exactly for ASCII text and reads back as the codes of its first `width` characters, less the NULs at the end |
| Text.StoreTextRoundTrip | mth5/mth5_groups.py:441-443 | ASCII text that fits its field and does not end in NUL reads back unchanged |
| Text.Lower | mth5/mth5_groups.py:525 | lower-casing keeps the length, leaves no capital, keeps every other character and turns each capital into its small letter |
| Text.LowerIdempotent | mth5/mth5_groups.py:525 | lower-casing twice is lower-casing once |
| Text.SplitJoin | mth5/mth5_groups.py:436-437 | splitting the comma-join of comma-free items gives the items back |
| Text.SplitHead | mth5/mth5_groups.py:131 | `s.split(sep)[0]`: the prefix before the first occurrence of `sep`, or all of `s` |
| Text.SplitHeadSuffix | mth5/mth5_groups.py:131 | a name followed by the separator, with no separator start in the name, splits back to the name |
| Groups.ClassName | mth5/mth5_groups.py:129-131 | a group's `_class_name` plus "Group" is its class name, and holds no "G" |
| Groups.ChannelClassName | mth5/mth5_groups.py:565-567 | a channel's `_class_name` plus "Dataset" is its class name |
| Groups.Mth5Type | mth5/mth5_groups.py:62-63 | the `mth5_type` tag is the class name cut at the first "Group": a prefix with no "Group" starting inside it, followed by "Group" unless it is the whole name |
| Text.SplitHeadIdempotent | mth5/mth5_groups.py:62-63 | cutting at the first "Group" a second time cuts nothing more |
| Groups.TagIsClassName | mth5/mth5_groups.py:62-63 | the `mth5_type` of every group and channel class is its `_class_name` |
| Groups.KindTagged | mth5/mth5_groups.py:62-63 | the inverse of the tag: a found kind's class name is the tag plus "Group"; none when no class has that name |
| Groups.TagIdentifiesKind | mth5/mth5_groups.py:62-63 | the tag identifies the group class: mapping it back gives the kind it came from |
| Groups.RunDefaults | mth5/mth5_groups.py:479-487 | a run's defaults are the Run layout, a valid dtype, with `max_shape` 20 |
| Groups.SummaryDefaults | mth5/mth5_groups.py:99-487 | every class's summary dtype has at least one field and unique names, and its `max_shape` is at least 1; a run gets the Run layout with `max_shape` 20 |
| Groups.BaseDefaults | mth5/mth5_groups.py:101-103 | the base defaults, kept by the survey and filters groups, are a valid dtype (at least one field, unique names) with `max_shape` at least 1 |
| Groups.MasterStationDefaults | mth5/mth5_groups.py:236-249 | the stations group's defaults are a valid dtype with `max_shape` at least 1 |
| Groups.StationDefaults | mth5/mth5_groups.py:309-317 | a station's defaults are a valid dtype with `max_shape` at least 1 |
| Groups.ReportsDefaults | mth5/mth5_groups.py:387-391 | the reports defaults are a valid dtype with `max_shape` at least 1 |
| Groups.StandardsDefaults | mth5/mth5_groups.py:403-413 | the standards defaults are a valid dtype with `max_shape` at least 1, keyed by the `attribute` column that `summary_table_from_dict` fills from the dictionary key |
| Groups.NewGroup | mth5/mth5_groups.py:263-267 | a new group is empty, of its kind, and carries its class name as tag |
| Groups.InitializeSummaryTable | mth5/mth5_groups.py:174-196 | creates `Summary` with the class's dtype and `max_shape`, holding only the default row; a taken name raises `ValueError` and changes nothing; no other member changes |
| Groups.SummaryTable | mth5/mth5_groups.py:133-135 | the table under `Summary`; a missing member raises `KeyError`, and a group there raises `MTH5TableError` |
| Groups.GetChild | mth5/mth5_groups.py:280-296 | `get_station` / `get_run`: succeeds exactly when the name is a member, returning it; otherwise raises `MTH5Error` |
| Groups.AddChild | mth5/mth5_groups.py:263-278 | idempotent create: a taken name returns the member there and changes nothing; a new name adds exactly that member |
| Groups.AddStation | mth5/mth5_groups.py:252-278 | never fails; a taken name returns the existing member unchanged; otherwise stores and returns a new tagged station with no summary table; the parent keeps its kind, tag and every other member |
| Groups.NewRun | mth5/mth5_groups.py:341-344 | a new run is tagged "Run" and holds only its summary table, of the Run layout, `max_shape` 20, with only the default row |
| Groups.AddRun | mth5/mth5_groups.py:328-356 | never fails; a taken name returns the existing member unchanged; otherwise stores and returns an initialized run; the parent keeps its kind, tag and every other member |
| GroupFacts.AddStationIdempotent | mth5/mth5_groups.py:263-278 | adding the same station name twice is the same as adding it once |
| GroupFacts.GetStationAfterAdd | mth5/mth5_groups.py:280-296 | `get_station` finds what `add_station` returned |
| GroupFacts.GetStationMissing | mth5/mth5_groups.py:290-296 | a name never added raises `MTH5Error`, also after adding another station |
| GroupFacts.AddRunIdempotent | mth5/mth5_groups.py:341-356 | adding the same run name twice is the same as adding it once |
| GroupFacts.GetRunAfterAdd | mth5/mth5_groups.py:358-374 | `get_run` finds the run `add_run` created, whose summary table holds only the default row |
| GroupFacts.InitializeTwiceRaises | mth5/mth5_groups.py:182-186 | a second `initialize_summary_table` raises and keeps the first table |
| GroupFacts.FirstSummaryRowLandsAtOne | mth5/mth5_groups.py:182-186 | the first row added to an initialized summary table gets index 1; the table is then the default row and that row |
| Groups.ParseChannelType | mth5/mth5_groups.py:525-538 | a channel type is electric, magnetic or auxiliary exactly when its lower-case form is that word |
| Groups.ChannelTypeIgnoresCase | mth5/mth5_groups.py:525-538 | any spelling that differs only in case is accepted or refused alike, and each kind's own name is accepted |
| Groups.TableEntry | mth5/mth5_groups.py:569-585 | the entry has the Run layout and the dataset size in `n_samples`; it fails with `UnicodeEncodeError` exactly when some text is not ASCII; otherwise component, start, end, type and units are the bytes their `S5`, `S32`, `S32`, `S12`, `S25` fields show for the texts (ASCII codes, cut to width, trailing NULs dropped) |
| Groups.TableEntryRoundTrip | mth5/mth5_groups.py:569-585 | when every text fits its field, reading the entry back gives the channel's component, start, end, type and units, and the size |
| Groups.ChannelNode | mth5/mth5_groups.py:526-535 | the written channel dataset records its kind and metadata, and its tag plus "Dataset" is its class name |
| Groups.AddSummaryRow | mth5/mth5_groups.py:539-540 | `summary_table.add_row(entry)`: looks up the table first, then the entry; succeeds exactly when both exist, the dtypes match and there is room; then the table gains exactly the row at the old `nrows`; a failure changes nothing |
| Groups.FillChannel | mth5/mth5_groups.py:507-540 | a new dataset is stored under the name; an unknown channel type raises `MTH5Error` and leaves only the bare dataset behind |
| Groups.FillChannelAppendsEntry | mth5/mth5_groups.py:525-540 | `add_channel` on a new name succeeds exactly when the type is known, the run's summary table has the Run layout and room, and the metadata is ASCII; then the channel is stored and the summary table gains exactly its table entry |
| Groups.FillChannelKeepsOthers | mth5/mth5_groups.py:507-540 | `add_channel` adds only the new name, changes no other member but the summary table, and keeps the summary table valid |
| Groups.FillChannelFailureKeepsSummary | mth5/mth5_groups.py:536-540 | a failing `add_channel` leaves the run's summary table as it was |
| Groups.AddChannelAsWritten | mth5/mth5_groups.py:489-554 | as written, a taken name raises `ValueError` (the `except OSError` does not catch it); a new name is created and filled |
| Groups.AddChannel | mth5/mth5_groups.py:542-554 | as the fallback intends: a taken name reopens the existing member, changing nothing, exactly when the type is known whatever its case, and otherwise raises `MTH5Error`; a new name is handled as written |
| Groups.ReopenChannelAsWritten | mth5/mth5_groups.py:546-552 | the fallback as written: it returns the existing member exactly for a type spelt "magnetic", "electric" or "auxiliary", and otherwise raises `UnboundLocalError` on `channel_obj` |
| Groups.ReopenChannel | mth5/mth5_groups.py:546-552 | the fallback as intended: it returns the existing member exactly when the type is known whatever its case, and otherwise raises `MTH5Error` |
| GroupFacts.NewRunFitsChannel | mth5/mth5_groups.py:341-344 | a new run has room for one channel of a known type with ASCII metadata |
| GroupFacts.FirstChannelRows | mth5/mth5_groups.py:539-540 | filling the first channel into a new run succeeds and appends its table entry after the default row |
| GroupFacts.FirstChannelOfNewRun | mth5/mth5_groups.py:525-540 | the first channel of a new run succeeds and leaves the summary table as the default row followed by the channel's table entry |
| GroupFacts.AddChannelTwiceRaisesAsWritten | mth5/mth5_groups.py:542-554 | on a new run, a first `add_channel` of a known type with ASCII metadata succeeds; a second call with the same name raises as written, while the intended call returns the first channel and changes nothing |
| GroupFacts.ReopenCapitalisedRaisesAsWritten | mth5/mth5_groups.py:546-552 | a channel added as "Electric" is reopened by the intended fallback, while the fallback as written raises `UnboundLocalError` |
| StandardsTable.Project | mth5/mth5_groups.py:431-439 | a list becomes its comma-join (an empty list becomes ''), `None` becomes '', and texts and flags pass through |
| StandardsTable.ProjectionForgets | mth5/mth5_groups.py:431-439 | the projection is lossy: an empty list, `None`, '' and `['']` all give the same cell |
| StandardsTable.ProjectionKeepsCommaFreeLists | mth5/mth5_groups.py:436-437 | a non-empty list of comma-free items is recovered from its cell text |
| StandardsTable.Coerce | mth5/mth5_groups.py:441-443 | storing a projected value: the result fits its field; text into a byte field fails exactly for non-ASCII text and otherwise holds the bytes the field shows for it (ASCII codes, cut to width, trailing NULs dropped); a flag into a byte field holds the bytes of "True" or "False"; a flag into a boolean field is stored as is; anything else is refused with `TypeError` |
| StandardsTable.CoerceAll | mth5/mth5_groups.py:441-443 | the row converts exactly when every field converts, each value being its field's conversion |
| StandardsTable.MissingField | mth5/mth5_groups.py:428-429 | reports a missing field exactly when some field after the key is absent from the description; the one reported is the first such field in dtype order, the one `v_dict[dkey]` raises on |
| StandardsTable.BuildRow | mth5/mth5_groups.py:427-443 | a description lacking a field raises `KeyError` naming the first missing field in dtype order; a row is built exactly when no field is missing and every value converts; a built row is valid for the layout, holds the key first and each field's projected, converted value |
| StandardsTable.SummaryTableFromDict | mth5/mth5_groups.py:426-444 | one row per item in order: earlier rows are kept and the table stays valid; the call succeeds exactly when every item builds a row and the table has room for all of them |
| StandardsTable.FromDictStopsAtFailure | mth5/mth5_groups.py:426-444 | a failing call keeps the rows it appended before the failure (no rollback): every earlier item built its row, and the error is the failing item's `BuildRow` error, or `ValueError` (max_shape) when that item built but the table was full |
| StandardsTable.FromDictAppendsBuiltRows | mth5/mth5_groups.py:426-444 | the appended rows are, position by position, the rows built from the items |
| StandardsTable.SummaryTableFromDictAsWritten | mth5/mth5_groups.py:426-446 | as written, an empty dictionary raises `UnboundLocalError` on `index`; otherwise the same as the corrected call |
| StandardsTable.EmptyDictRaisesAsWritten | mth5/mth5_groups.py:446 | an empty dictionary raises as written and is a no-op once corrected |
| StandardsTable.ListCellRoundTrip | mth5/mth5_groups.py:436-443 | a list stored in a wide enough byte field comes back as the same items when the cell is split at commas |

## Left out

- HDF5 storage itself is not modelled: files, `weakref`, object references, chunking, attributes, and the waveform arrays. A data dataset is only its size. An `h5py` reference cell is an opaque handle.
- `write_metadata`, `read_metadata`, `to_numpy_type` and the `metadata` / `schema` modules are not part of this model. The `mth5_type` tag is the only attribute modelled. The channel metadata that `table_entry` reads is a parameter.
- The metadata-injection path of the constructors is not modelled:
  - `metadata=` in `add_station` replaces the station's record with `None` through the `**kwargs` loop, so its `write_metadata` would fail;
  - `run_metdata=` and `channel_metdata=` are swallowed;
  - the `group_metadata` check reads the module, not the argument.
- Groups.AddStation: models the station as created and tagged, as if `write_metadata` succeeded. The `metadata=None` keyword described above would make the real call raise `AttributeError` after the group exists.
- `__str__`, `__repr__`, `__eq__`, `__ne__`, `__len__`, `__iter__`, `groups_list`, `read_data` / `write_data` and logging are not modelled. They are formatting, iteration or stubs.
- Summary.Locate: a list or array value given to `eq`/`lt`/`le`/`gt`/`ge` on an ordinary column is excluded by a precondition. numpy broadcasts the column against it, which is outside the model.
- Summary.LocateAsWritten: carries the same precondition as `Summary.Locate`, for the same reason.
- Summary.AddRow: an argument that is not a numpy array is not modelled. The code builds an error message but raises nothing. Negative indices and multi-row arrays are not modelled either.
- Floats are ordered reals, with no NaN and no rounding. `np.int` cells are unbounded integers, with no 64-bit wrap-around.
- Time parsing is an abstract function: numpy's datetime grammar is not modelled. A time cell is compared as an instant only when it is a byte field.
- Text.Lower: lower-cases ASCII letters only. Python's `str.lower` also maps other characters, and two of them lower to text holding an ASCII letter. The Kelvin sign lowers to "k", which none of "electric", "magnetic" and "auxiliary" contains. "İ" lowers to "i" followed by a combining dot, and that dot breaks the equality. So a type that is not ASCII never lowers to one of the three words, and the channel type check is exact.
- StandardsTable.Coerce: only text, flags, lists and `None` are modelled as description values. A text or flag into a byte field, and a flag into a boolean field, are the conversions used; other combinations are refused with `TypeError`, where numpy would convert some of them: a text stored into a boolean field becomes its truthiness ('' is False), so a description whose `required` is `None` or a list builds a row in the code and fails with `TypeError` in the model.
- Groups.SummaryTable: a data dataset under the name `Summary` is refused with `ValueError` at lookup. In the code, `MTH5Table` accepts it and the later `add_row` raises `ValueError`. So the error raised by `table_entry` in between is not reported first.
- StandardsTable.SummaryTableFromDict: takes the standards summary table itself. The `self.summary_table` lookup before each row is `Groups.SummaryTable`; its failure, such as `KeyError` for a group without `Summary`, is not repeated here.
- Groups.ReopenChannel: returns the stored member. The code wraps the existing dataset in the class the caller names and reads its metadata back; the model does not build that object.
- `StandardsGroup.initialize_group` is not modelled, because it reads the schema catalogue, which is not part of this model. Its table filling is `summary_table_from_dict`.
- Names are single path components: `h5py` path syntax (slashes, empty names) is not modelled.
- `create_dataset` on a taken name is modelled as `ValueError`, as `h5py` 3 raises it. `h5py` 2 raises `RuntimeError`, which the `except OSError` does not catch either.

## Findings

| source | as written | input that shows it | evidently intended | confidence | as-written member | corrected member |
|---|---|---|---|---|---|---|
| mth5/mth5_groups.py:446 | the debug message reads `index`, which only the loop body binds | `summary_table_from_dict({})` raises `UnboundLocalError` | an empty dictionary adds nothing and returns | not executed; high: the f-string is built before the log-level check | StandardsTable.SummaryTableFromDictAsWritten (shown by StandardsTable.EmptyDictRaisesAsWritten) | StandardsTable.SummaryTableFromDict |
| mth5/mth5_groups.py:740-746 | `be` bounds skip the str-to-bytes step and, on time columns, the whole list goes to `np.datetime64` | `locate('start', [b'1', b'3'], 'be')` raises `ValueError`; `locate('id', ['a', 'c'], 'be')` raises `TypeError` | each bound is converted as a scalar value is, and the search selects the rows strictly between | not executed; medium: depends on numpy refusing a list in `np.datetime64` and refusing to order bytes against str | Summary.LocateAsWritten (shown by SummaryFacts.BetweenOnTimeColumnRaisesAsWritten and SummaryFacts.BetweenStrBoundsRaiseAsWritten) | Summary.Locate |
| mth5/mth5_groups.py:542 | the fallback for an existing channel name catches `OSError` | `add_channel('ex', 'electric', None)` twice: the second call raises | the second call returns the existing channel | not executed; medium: depends on `h5py` raising `ValueError` (3.x) or `RuntimeError` (2.x) for a taken name | Groups.AddChannelAsWritten (shown by GroupFacts.AddChannelTwiceRaisesAsWritten) | Groups.AddChannel |
| mth5/mth5_groups.py:546-552 | the fallback matches `channel_type` case-sensitively and has no `else`, so `channel_obj` stays unbound for any other spelling | `add_channel('ex', 'Electric', None)` for an existing `ex`, once the fallback is reached, raises `UnboundLocalError` | the type is read as the main path reads it, ignoring case, and the existing channel is returned | not executed; high for the unbound name once the branch is reached; reaching it needs the exception fix above | Groups.ReopenChannelAsWritten (shown by GroupFacts.ReopenCapitalisedRaisesAsWritten) | Groups.ReopenChannel |

=== FILE: groups.dfy ===
/** The group containers of mth5/mth5_groups.py: which class wraps a node,
    the `mth5_type` tag derived from the class name, the per-kind summary
    table defaults, and the child rules (`add_station` / `get_station`,
    `add_run` / `get_run`, `add_channel` with `ChannelDataset.table_entry`).

    An HDF5 group is an immutable map from member names to nodes; its
    summary table is the dataset member named "Summary". */
module Groups {
  import opened Outcomes
  import opened Text
  import opened Summary

  // ---------------------------------------------------------------------
  // Classes and their names
  // ---------------------------------------------------------------------

  /** The `BaseGroup` subclasses. */
  datatype GroupKind = Survey | MasterStation | Station | Run | Reports | Standards | Filters

  /** The `ChannelDataset` subclasses. */
  datatype ChannelKind = Electric | Magnetic | Auxiliary

  /** `__class__.__name__` of each group class. */
  function GroupClass(k: GroupKind): string {
    match k
    case Survey => "SurveyGroup"
    case MasterStation => "MasterStationGroup"
    case Station => "StationGroup"
    case Run => "RunGroup"
    case Reports => "ReportsGroup"
    case Standards => "StandardsGroup"
    case Filters => "FiltersGroup"
  }

  /** `__class__.__name__` of each channel class. */
  function ChannelClass(k: ChannelKind): string {
    match k
    case Electric => "ElectricDataset"
    case Magnetic => "MagneticDataset"
    case Auxiliary => "AuxiliaryDataset"
  }

  /** A class name: a stem free of the suffix's first letter, then the suffix. */
  predicate SuffixedName(c: string, stem: string, suffix: string) {
    && |suffix| > 0
    && c == stem + suffix
    && forall i :: 0 <= i < |stem| ==> stem[i] != suffix[0] && stem[i] != 'G'
  }

  /** Every group class name is its stem followed by "Group". */
  lemma GroupClassSuffixed(k: GroupKind)
    ensures exists stem :: SuffixedName(GroupClass(k), stem, "Group")
  {
    match k
    case Survey => assert SuffixedName(GroupClass(k), "Survey", "Group");
    case MasterStation => assert SuffixedName(GroupClass(k), "MasterStation", "Group");
    case Station => assert SuffixedName(GroupClass(k), "Station", "Group");
    case Run => assert SuffixedName(GroupClass(k), "Run", "Group");
    case Reports => assert SuffixedName(GroupClass(k), "Reports", "Group");
    case Standards => assert SuffixedName(GroupClass(k), "Standards", "Group");
    case Filters => assert SuffixedName(GroupClass(k), "Filters", "Group");
  }

  /** Every channel class name is its stem followed by "Dataset". */
  lemma ChannelClassSuffixed(k: ChannelKind)
    ensures exists stem :: SuffixedName(ChannelClass(k), stem, "Dataset")
  {
    match k
    case Electric => assert SuffixedName(ChannelClass(k), "Electric", "Dataset");
    case Magnetic => assert SuffixedName(ChannelClass(k), "Magnetic", "Dataset");
    case Auxiliary => assert SuffixedName(ChannelClass(k), "Auxiliary", "Dataset");
  }

  /** `s.split(suffix)[0]` of a suffixed name is its stem. */
  lemma SplitSuffixedName(c: string, stem: string, suffix: string)
    requires SuffixedName(c, stem, suffix)
    ensures SplitHead(c, suffix) == stem
  {
    SplitHeadSuffix(stem, suffix);
  }

  /** `BaseGroup._class_name`: the class name up to the first "Group". It
      strips exactly the trailing suffix, and what is left holds no "G". */
  function ClassName(k: GroupKind): (r: string)
    ensures r + "Group" == GroupClass(k)
    ensures forall i :: 0 <= i < |r| ==> r[i] != 'G'
  {
    GroupClassSuffixed(k);
    var stem :| SuffixedName(GroupClass(k), stem, "Group");
    SplitSuffixedName(GroupClass(k), stem, "Group");
    SplitHead(GroupClass(k), "Group")
  }

  /** `ChannelDataset._class_name`: the class name up to the first "Dataset". */
  function ChannelClassName(k: ChannelKind): (r: string)
    ensures r + "Dataset" == ChannelClass(k)
    ensures forall i :: 0 <= i < |r| ==> r[i] != 'D' && r[i] != 'G'
  {
    ChannelClassSuffixed(k);
    var stem :| SuffixedName(ChannelClass(k), stem, "Dataset");
    SplitSuffixedName(ChannelClass(k), stem, "Dataset");
    SplitHead(ChannelClass(k), "Dataset")
  }

  /** The `mth5_type` attribute `BaseGroup.__init__` derives from whatever
      `_class_name` gives: that name, cut once more at "Group". */
  function Mth5Type(className: string): (r: string)
    ensures |r| <= |className| && r == className[..|r|]
    ensures |r| < |className| ==> OccursAt(className, |r|, "Group")
    ensures forall j :: 0 <= j < |r| ==> !OccursAt(className, j, "Group")
  {
    SplitHead(className, "Group")
  }

  /** The tag of every group and channel is its class name. */
  lemma TagIsClassName(g: GroupKind, c: ChannelKind)
    ensures Mth5Type(ClassName(g)) == ClassName(g)
    ensures Mth5Type(ChannelClassName(c)) == ChannelClassName(c)
  {
    SplitHeadAbsent(ClassName(g), "Group");
    SplitHeadAbsent(ChannelClassName(c), "Group");
  }

  /** The group kind whose class a tag names, if any: the inverse of the tag. */
  function KindTagged(tag: string): (r: Option<GroupKind>)
    ensures r.Some? ==> GroupClass(r.value) == tag + "Group"
    ensures r.None? ==> forall k :: GroupClass(k) != tag + "Group"
  {
    var c := tag + "Group";
    if c == GroupClass(Survey) then Some(Survey)
    else if c == GroupClass(MasterStation) then Some(MasterStation)
    else if c == GroupClass(Station) then Some(Station)
    else if c == GroupClass(Run) then Some(Run)
    else if c == GroupClass(Reports) then Some(Reports)
    else if c == GroupClass(Standards) then Some(Standards)
    else if c == GroupClass(Filters) then Some(Filters)
    else None
  }

  /** Different group classes have different names. */
  lemma GroupClassInjective(j: GroupKind, k: GroupKind)
    requires GroupClass(j) == GroupClass(k)
    ensures j == k
  {
  }

  /** The tag identifies the class: distinct group kinds get distinct tags. */
  lemma TagIdentifiesKind(k: GroupKind)
    ensures KindTagged(Mth5Type(ClassName(k))) == Some(k)
  {
    TagIsClassName(k, Electric);
    var name := ClassName(k);
    var r := KindTagged(name);
    assert r.Some?;
    GroupClassInjective(r.value, k);
  }

  // ---------------------------------------------------------------------
  // Summary table defaults
  // ---------------------------------------------------------------------

  /** The Run summary layout; `ChannelDataset.table_entry` uses the same one. */
  const RunLayout: Layout :=
    [Field("component", FixedBytes(5)), Field("start", FixedBytes(32)), Field("end", FixedBytes(32)),
     Field("n_samples", Int64), Field("measurement_type", FixedBytes(12)), Field("units", FixedBytes(25))]

  /** `_defaults_summary_attrs` of `BaseGroup`, kept by the survey and
      filters groups: one float column, `max_shape` 10000. */
  function BaseDefaults(): (d: (Layout, nat))
    ensures ValidLayout(d.0) && d.1 >= 1
  {
    ([Field("default", Float64)], 10000)
  }

  /** The stations group's defaults: one row per station, with a reference. */
  function MasterStationDefaults(): (d: (Layout, nat))
    ensures ValidLayout(d.0) && d.1 >= 1
  {
    ([Field("archive_id", FixedBytes(5)), Field("start", FixedBytes(32)), Field("end", FixedBytes(32)),
      Field("components", FixedBytes(100)), Field("measurement_type", FixedBytes(12)),
      Field("location.latitude", Float64), Field("location.longitude", Float64),
      Field("hdf5_reference", Reference)], 1000)
  }

  /** A station's defaults: one row per run. */
  function StationDefaults(): (d: (Layout, nat))
    ensures ValidLayout(d.0) && d.1 >= 1
  {
    ([Field("id", FixedBytes(5)), Field("start", FixedBytes(32)), Field("end", FixedBytes(32)),
      Field("components", FixedBytes(100)), Field("measurement_type", FixedBytes(12)),
      Field("sample_rate", Float64)], 1000)
  }

  /** A run's defaults: one row per channel, in the Run layout. */
  function RunDefaults(): (d: (Layout, nat))
    ensures ValidLayout(d.0) && d == (RunLayout, 20)
  {
    (RunLayout, 20)
  }

  /** The reports group's defaults. */
  function ReportsDefaults(): (d: (Layout, nat))
    ensures ValidLayout(d.0) && d.1 >= 1
  {
    ([Field("name", FixedBytes(5)), Field("type", FixedBytes(32)), Field("summary", FixedBytes(200))], 1000)
  }

  /** The standards group's defaults: one row per metadata attribute, keyed
      by the attribute's name. */
  function StandardsDefaults(): (d: (Layout, nat))
    ensures ValidLayout(d.0) && d.1 >= 1 && d.0[0].name == "attribute"
  {
    ([Field("attribute", FixedBytes(72)), Field("type", FixedBytes(15)), Field("required", Boolean),
      Field("style", FixedBytes(72)), Field("units", FixedBytes(32)), Field("description", FixedBytes(300)),
      Field("options", FixedBytes(150)), Field("alias", FixedBytes(72)), Field("example", FixedBytes(72))], 500)
  }

  /** `_defaults_summary_attrs` of each class: the dtype and `max_shape`. */
  function SummaryDefaults(k: GroupKind): (d: (Layout, nat))
    ensures ValidLayout(d.0) && d.1 >= 1
    ensures k == Run ==> d == (RunLayout, 20)
  {
    match k
    case MasterStation => MasterStationDefaults()
    case Station => StationDefaults()
    case Run => RunDefaults()
    case Reports => ReportsDefaults()
    case Standards => StandardsDefaults()
    case _ => BaseDefaults()
  }

  // ---------------------------------------------------------------------
  // Nodes
  // ---------------------------------------------------------------------

  /** The channel metadata `table_entry` reads. */
  datatype ChannelMeta = ChannelMeta(component: string, start: string, end: string,
                                     measurementType: string, units: string)

  /** What `write_metadata` left on a channel dataset. */
  datatype ChannelRecord = ChannelRecord(kind: ChannelKind, tag: string, meta: ChannelMeta)

  /** A member of an HDF5 file: a group (with the `mth5_type` attribute its
      metadata wrote, if any), a summary-table dataset, or a data dataset of
      `size` samples with the channel metadata written on it, if any. */
  datatype Node =
    | Group(kind: GroupKind, tag: Option<string>, members: map<string, Node>)
    | SummaryData(table: Table)
    | SampleData(size: nat, channel: Option<ChannelRecord>)

  const SummaryName: string := "Summary"

  /** A group whose summary dataset, if it has one, is a valid table. */
  predicate GroupOk(g: Node) {
    && g.Group?
    && (SummaryName in g.members && g.members[SummaryName].SummaryData? ==>
          Valid(g.members[SummaryName].table))
  }

  /** A group as `create_group` followed by `write_metadata` leaves it. */
  function NewGroup(k: GroupKind): (g: Node)
    ensures GroupOk(g) && g.kind == k && g.members == map[]
    ensures g.tag == Some(ClassName(k))
  {
    TagIsClassName(k, Electric);
    Group(k, Some(Mth5Type(ClassName(k))), map[])
  }

  /** `initialize_summary_table`: creates "Summary" with the class's dtype
      and `max_shape`, holding one default row. A taken name raises
      `ValueError` and changes nothing. No other member changes. */
  function InitializeSummaryTable(g: Node): (r: Change<Node, ()>)
    requires g.Group?
    ensures r.state.Group? && r.state.kind == g.kind && r.state.tag == g.tag
    ensures r.result.Ok? <==> SummaryName !in g.members
    ensures r.result.Err? ==> r.state == g && r.result.error == ValueError(NameExists(SummaryName))
    ensures r.result.Ok? ==>
              && r.state.members.Keys == g.members.Keys + {SummaryName}
              && (forall n :: n in g.members ==> r.state.members[n] == g.members[n])
              && r.state.members[SummaryName].SummaryData?
              && var t := r.state.members[SummaryName].table;
                 && Valid(t) && (t.layout, t.maxRows) == SummaryDefaults(g.kind)
                 && t.rows == [DefaultRow(t.layout)]
    ensures GroupOk(g) ==> GroupOk(r.state)
  {
    if SummaryName in g.members then Change(g, Err(ValueError(NameExists(SummaryName))))
    else
      var (layout, cap) := SummaryDefaults(g.kind);
      var t := Create(layout, cap).value;
      Change(g.(members := g.members[SummaryName := SummaryData(t)]), Ok(()))
  }

  /** The `summary_table` property: `MTH5Table(group['Summary'])`. A missing
      member raises `KeyError`; a group there is refused with
      `MTH5TableError`; a data dataset there has no compound dtype, so
      every row given to it raises `ValueError`. */
  function SummaryTable(g: Node): (r: Result<Table>)
    requires g.Group?
    ensures r.Ok? <==> SummaryName in g.members && g.members[SummaryName].SummaryData?
    ensures r.Ok? ==> r.value == g.members[SummaryName].table
    ensures SummaryName !in g.members ==> r == Err(KeyError(SummaryName))
    ensures SummaryName in g.members && g.members[SummaryName].Group? ==> r == Err(MTH5TableError)
  {
    if SummaryName !in g.members then Err(KeyError(SummaryName))
    else match g.members[SummaryName]
      case Group(_, _, _) => Err(MTH5TableError)
      case SummaryData(t) => Ok(t)
      case SampleData(_, _) => Err(ValueError(LayoutMismatch))
  }

  /** `get_station` / `get_run`: the member under `name`, whatever it is;
      a missing name raises `MTH5Error`. */
  function GetChild(g: Node, name: string): (r: Result<Node>)
    requires g.Group?
    ensures r.Ok? <==> name in g.members
    ensures r.Ok? ==> r.value == g.members[name]
    ensures r.Err? ==> r.error == MTH5Error(NoSuchChild(name))
  {
    if name in g.members then Ok(g.members[name]) else Err(MTH5Error(NoSuchChild(name)))
  }

  /** Idempotent create shared by `add_station` and `add_run`: an existing
      member is returned untouched; otherwise `fresh` is stored under
      `name` and returned. No other member changes. */
  function AddChild(g: Node, name: string, child: Node): (r: Change<Node, Node>)
    requires g.Group?
    ensures r.state.Group? && r.state.kind == g.kind && r.state.tag == g.tag
    ensures r.result.Ok?
    ensures name in g.members ==> r.state == g && r.result.value == g.members[name]
    ensures name !in g.members ==>
              && r.state.members.Keys == g.members.Keys + {name}
              && r.state.members[name] == child && r.result.value == child
    ensures forall n :: n in g.members ==> n in r.state.members && r.state.members[n] == g.members[n]
  {
    if name in g.members then Change(g, Ok(g.members[name]))
    else Change(g.(members := g.members[name := child]), Ok(child))
  }

  /** `add_station`: a new station group carries its tag and no summary
      table (the station's `initialize_group` is never called). */
  function AddStation(m: Node, name: string): (r: Change<Node, Node>)
    requires m.Group?
    ensures r.result.Ok?
    ensures name in m.members ==> r.state == m && r.result.value == m.members[name]
    ensures r.state.Group? && r.state.kind == m.kind && r.state.tag == m.tag
    ensures name !in m.members ==>
              && r.result.value == NewGroup(Station)
              && r.state == m.(members := m.members[name := NewGroup(Station)])
    ensures GroupOk(m) && name != SummaryName ==> GroupOk(r.state)
  {
    AddChild(m, name, NewGroup(Station))
  }

  /** A run as `add_run` creates it: `initialize_group` made its summary
      table (one default row) and wrote its tag. */
  function NewRun(): (g: Node)
    ensures GroupOk(g) && g.kind == Run && g.tag == Some("Run")
    ensures g.members.Keys == {SummaryName}
    ensures SummaryTable(g).Ok?
    ensures var t := SummaryTable(g).value;
            t.layout == RunLayout && t.maxRows == 20 && t.rows == [DefaultRow(RunLayout)]
  {
    var g := NewGroup(Run);
    assert ClassName(Run) == "Run" by {
      assert (ClassName(Run) + "Group")[..|ClassName(Run)|] == ClassName(Run);
    }
    InitializeSummaryTable(g).state
  }

  /** `add_run`: an existing name returns that member; otherwise a new,
      initialized run is stored and returned. */
  function AddRun(s: Node, name: string): (r: Change<Node, Node>)
    requires s.Group?
    ensures r.result.Ok?
    ensures name in s.members ==> r.state == s && r.result.value == s.members[name]
    ensures r.state.Group? && r.state.kind == s.kind && r.state.tag == s.tag
    ensures name !in s.members ==>
              && r.result.value == NewRun()
              && r.state == s.(members := s.members[name := NewRun()])
    ensures GroupOk(s) && name != SummaryName ==> GroupOk(r.state)
  {
    AddChild(s, name, NewRun())
  }

  // ---------------------------------------------------------------------
  // Channels
  // ---------------------------------------------------------------------

  /** The channel type check of `add_channel`: `channel_type.lower()` must
      be one of the three kind names. */
  function ParseChannelType(given: string): (r: Option<ChannelKind>)
    ensures r == Some(Electric) <==> Lower(given) == "electric"
    ensures r == Some(Magnetic) <==> Lower(given) == "magnetic"
    ensures r == Some(Auxiliary) <==> Lower(given) == "auxiliary"
  {
    var t := Lower(given);
    if t == "magnetic" then Some(Magnetic)
    else if t == "electric" then Some(Electric)
    else if t == "auxiliary" then Some(Auxiliary)
    else None
  }

  /** The lower-case kind name a channel type must match. */
  function KindName(k: ChannelKind): string {
    match k
    case Electric => "electric"
    case Magnetic => "magnetic"
    case Auxiliary => "auxiliary"
  }

  /** The check ignores case: every spelling differing only in case is
      accepted or refused alike, and each kind's own name is accepted. */
  lemma ChannelTypeIgnoresCase(given: string, k: ChannelKind)
    ensures ParseChannelType(Lower(given)) == ParseChannelType(given)
    ensures ParseChannelType(KindName(k)) == Some(k)
  {
    LowerIdempotent(given);
    assert Lower(KindName(k)) == KindName(k);
  }

  /** `v` holds the channel's component, start, end, size, type and units,
      each text as its field shows it. */
  predicate HoldsEntry(v: seq<Value>, meta: ChannelMeta, size: nat) {
    && |v| == 6
    && StoredAs(v[0], meta.component, 5) && StoredAs(v[1], meta.start, 32) && StoredAs(v[2], meta.end, 32)
    && v[3] == IntVal(size)
    && StoredAs(v[4], meta.measurementType, 12) && StoredAs(v[5], meta.units, 25)
  }

  /** An ASCII text stored into an `S<width>` cell. */
  function TextCell(s: string, width: nat): (v: Value)
    requires IsAscii(s)
    ensures Fits(FixedBytes(width), v)
    ensures StoredAs(v, s, width)
  {
    StoredTextFits(s, width);
    BytesVal(StoreText(s, width).value)
  }

  /** Six cells of the Run layout's kinds and widths make a valid Run row. */
  lemma RunRowConforms(values: seq<Value>)
    requires |values| == 6
    requires Fits(FixedBytes(5), values[0]) && Fits(FixedBytes(32), values[1]) && Fits(FixedBytes(32), values[2])
    requires values[3].IntVal?
    requires Fits(FixedBytes(12), values[4]) && Fits(FixedBytes(25), values[5])
    ensures ValidRecord(Record(RunLayout, values))
  {
    forall j | 0 <= j < 6
      ensures Fits(RunLayout[j].ty, values[j])
    {
      if j == 3 {
        assert RunLayout[3].ty == Int64;
      }
    }
  }

  /** `table_entry`: the one-row array of the Run layout holding component,
      start, end, the dataset's size, type and units. A text that is not
      ASCII raises `UnicodeEncodeError`; longer texts are cut to width. */
  function TableEntry(meta: ChannelMeta, size: nat): (r: Result<Record>)
    ensures r.Ok? <==> IsAscii(meta.component) && IsAscii(meta.start) && IsAscii(meta.end)
                       && IsAscii(meta.measurementType) && IsAscii(meta.units)
    ensures r.Err? ==> r.error == UnicodeEncodeError
    ensures r.Ok? ==> ValidRecord(r.value) && r.value.layout == RunLayout
    ensures r.Ok? ==> HoldsEntry(r.value.values, meta, size)
  {
    if !(IsAscii(meta.component) && IsAscii(meta.start) && IsAscii(meta.end)
         && IsAscii(meta.measurementType) && IsAscii(meta.units)) then Err(UnicodeEncodeError)
    else
      var values := [TextCell(meta.component, 5), TextCell(meta.start, 32), TextCell(meta.end, 32),
                     IntVal(size), TextCell(meta.measurementType, 12), TextCell(meta.units, 25)];
      RunRowConforms(values);
      Ok(Record(RunLayout, values))
  }

  /** Text that fits its field (and does not end in NUL). */
  predicate Storable(s: string, width: nat) {
    IsAscii(s) && |s| <= width && (|s| == 0 || s[|s| - 1] != 0 as char)
  }

  /** Reading a table entry back gives the channel's metadata and size
      whenever every text fits its field. */
  lemma TableEntryRoundTrip(meta: ChannelMeta, size: nat)
    requires Storable(meta.component, 5) && Storable(meta.start, 32) && Storable(meta.end, 32)
    requires Storable(meta.measurementType, 12) && Storable(meta.units, 25)
    ensures TableEntry(meta, size).Ok?
    ensures var v := TableEntry(meta, size).value.values;
            && ReadsAs(v[0], meta.component) && ReadsAs(v[1], meta.start) && ReadsAs(v[2], meta.end)
            && v[3] == IntVal(size)
            && ReadsAs(v[4], meta.measurementType) && ReadsAs(v[5], meta.units)
  {
    TableEntryCells(meta, size);
    StoredReadsAs(meta.component, 5);
    StoredReadsAs(meta.start, 32);
    StoredReadsAs(meta.end, 32);
    StoredReadsAs(meta.measurementType, 12);
    StoredReadsAs(meta.units, 25);
  }

  /** A byte cell that reads back as the text `s`. */
  predicate ReadsAs(v: Value, s: string) {
    v.BytesVal? && Decode(v.b) == s
  }

  lemma StoredReadsAs(s: string, width: nat)
    requires Storable(s, width)
    ensures StoreText(s, width).Some? && ReadsAs(BytesVal(StoreText(s, width).value), s)
  {
    StoreTextRoundTrip(s, width);
  }

  /** The cells of a table entry are the stored texts and the size. */
  lemma TableEntryCells(meta: ChannelMeta, size: nat)
    requires IsAscii(meta.component) && IsAscii(meta.start) && IsAscii(meta.end)
    requires IsAscii(meta.measurementType) && IsAscii(meta.units)
    ensures TableEntry(meta, size).Ok?
    ensures TableEntry(meta, size).value.values
         == [BytesVal(StoreText(meta.component, 5).value), BytesVal(StoreText(meta.start, 32).value),
             BytesVal(StoreText(meta.end, 32).value), IntVal(size),
             BytesVal(StoreText(meta.measurementType, 12).value), BytesVal(StoreText(meta.units, 25).value)]
  {
  }

  /** The channel dataset `add_channel` leaves once the metadata of a
      channel of kind `k` is written: its tag is the class name. */
  function ChannelNode(k: ChannelKind, size: nat, meta: ChannelMeta): (n: Node)
    ensures n.SampleData? && n.size == size && n.channel.Some?
    ensures n.channel.value.kind == k && n.channel.value.meta == meta
    ensures n.channel.value.tag + "Dataset" == ChannelClass(k)
  {
    TagIsClassName(Survey, k);
    SampleData(size, Some(ChannelRecord(k, Mth5Type(ChannelClassName(k)), meta)))
  }

  /** The summary table of `after` is that of `before` with `row` appended. */
  predicate SummaryGrew(before: Node, after: Node, row: seq<Value>)
    requires before.Group? && after.Group?
  {
    && SummaryTable(before).Ok? && SummaryTable(after).Ok?
    && var b := SummaryTable(before).value;
       var a := SummaryTable(after).value;
       && a.layout == b.layout && a.maxRows == b.maxRows
       && |a.rows| == |b.rows| + 1
       && a.rows[..|b.rows|] == b.rows
       && a.rows[|b.rows|] == row
  }

  /** `self.summary_table.add_row(row)`, where building `row` may itself
      raise: the table is looked up first, then the row is built, then it is
      appended. On success the summary table gains exactly the row; on
      failure the group is unchanged. No other member changes. */
  function AddSummaryRow(g: Node, row: Result<Record>): (r: Change<Node, nat>)
    requires g.Group?
    ensures r.state.Group? && r.state.kind == g.kind && r.state.tag == g.tag
    ensures r.state.members.Keys == g.members.Keys
    ensures forall n :: n in g.members && n != SummaryName ==> r.state.members[n] == g.members[n]
    ensures r.result.Err? ==> r.state == g
    ensures SummaryTable(g).Err? ==> r.result == Err(SummaryTable(g).error)
    ensures SummaryTable(g).Ok? && row.Err? ==> r.result == Err(row.error)
    ensures r.result.Ok? <==>
              && SummaryTable(g).Ok? && row.Ok?
              && SummaryTable(g).value.layout == row.value.layout
              && |SummaryTable(g).value.rows| < SummaryTable(g).value.maxRows
    ensures r.result.Ok? ==>
              && r.result.value == |SummaryTable(g).value.rows|
              && SummaryGrew(g, r.state, row.value.values)
    ensures GroupOk(g) && (row.Ok? ==> ValidRecord(row.value)) ==> GroupOk(r.state)
  {
    match SummaryTable(g)
    case Err(e) => Change(g, Err(e))
    case Ok(t) =>
      match row
      case Err(e) => Change(g, Err(e))
      case Ok(entry) =>
        var added := AddRow(t, entry, None);
        if added.result.Err? then Change(g, Err(added.result.error))
        else Change(g.(members := g.members[SummaryName := SummaryData(added.state)]), Ok(added.result.value))
  }

  /** When `add_channel` on a new name can succeed: a known type, a summary
      table of the Run layout with room left, and ASCII metadata. */
  predicate ChannelFits(run: Node, name: string, given: string, size: nat, meta: ChannelMeta)
    requires run.Group?
  {
    && ParseChannelType(given).Some?
    && name != SummaryName
    && SummaryTable(run).Ok?
    && SummaryTable(run).value.layout == RunLayout
    && |SummaryTable(run).value.rows| < SummaryTable(run).value.maxRows
    && TableEntry(meta, size).Ok?
  }

  /** Everything `add_channel` does once the dataset `name` is created: the
      type check (the new dataset stays behind when it fails), writing the
      channel's metadata, then appending its table entry to the run's
      summary table. */
  function FillChannel(run: Node, name: string, given: string, size: nat, meta: ChannelMeta): (r: Change<Node, Node>)
    requires run.Group?
    ensures r.state.Group? && r.state.kind == run.kind && r.state.tag == run.tag
    ensures ParseChannelType(given).None? ==>
              r == Change(run.(members := run.members[name := SampleData(size, None)]),
                          Err(MTH5Error(BadChannelType(given))))
  {
    match ParseChannelType(given)
    case None => Change(run.(members := run.members[name := SampleData(size, None)]), Err(MTH5Error(BadChannelType(given))))
    case Some(k) =>
      var channel := ChannelNode(k, size, meta);
      var written := run.(members := run.members[name := channel]);
      var added := AddSummaryRow(written, TableEntry(meta, size));
      Change(added.state, if added.result.Ok? then Ok(channel) else Err(added.result.error))
  }

  /** `add_channel` on a new name succeeds exactly when the channel fits;
      then the channel is stored under `name` and the summary table gains
      exactly its table entry. */
  lemma FillChannelAppendsEntry(run: Node, name: string, given: string, size: nat, meta: ChannelMeta)
    requires run.Group?
    ensures var r := FillChannel(run, name, given, size, meta);
            && (r.result.Ok? <==> ChannelFits(run, name, given, size, meta))
            && (r.result.Ok? ==>
                  && r.result.value == ChannelNode(ParseChannelType(given).value, size, meta)
                  && r.state.members[name] == r.result.value
                  && SummaryGrew(run, r.state, TableEntry(meta, size).value.values))
  {
    var r := FillChannel(run, name, given, size, meta);
    var k := ParseChannelType(given);
    if k.Some? && name != SummaryName {
      var written := run.(members := run.members[name := ChannelNode(k.value, size, meta)]);
      assert SummaryTable(written) == SummaryTable(run);
    }
  }

  /** `add_channel` on a new name adds that one member and changes no
      other member but the summary table, which stays valid. */
  lemma FillChannelKeepsOthers(run: Node, name: string, given: string, size: nat, meta: ChannelMeta)
    requires run.Group?
    ensures var r := FillChannel(run, name, given, size, meta);
            && r.state.members.Keys == run.members.Keys + {name}
            && (forall n :: n in run.members && n != name && n != SummaryName ==> r.state.members[n] == run.members[n])
            && (GroupOk(run) ==> GroupOk(r.state))
  {
  }

  /** A failing `add_channel` on a new name leaves the summary table alone. */
  lemma FillChannelFailureKeepsSummary(run: Node, name: string, given: string, size: nat, meta: ChannelMeta)
    requires run.Group? && name != SummaryName
    ensures var r := FillChannel(run, name, given, size, meta);
            r.result.Err? ==> SummaryTable(r.state) == SummaryTable(run)
  {
  }

  /** The number of samples of the new dataset: the data's size, or one for
      the `shape=(1,)` dataset made when no data is given. */
  function SampleCount(data: Option<nat>): nat {
    match data
    case None => 1
    case Some(n) => n
  }

  /** `add_channel` as written. `create_dataset` on a taken name raises
      `ValueError`, which the `except OSError` clause does not catch, so the
      call fails instead of returning the existing channel. */
  function AddChannelAsWritten(run: Node, name: string, given: string, data: Option<nat>,
                               meta: ChannelMeta): (r: Change<Node, Node>)
    requires run.Group?
    ensures name in run.members ==> r == Change(run, Err(ValueError(NameExists(name))))
    ensures name !in run.members ==> r == FillChannel(run, name, given, SampleCount(data), meta)
  {
    if name in run.members then Change(run, Err(ValueError(NameExists(name))))
    else FillChannel(run, name, given, SampleCount(data), meta)
  }

  /** The `except` branch of `add_channel` as written, once reached: it
      reopens the existing channel for a type spelt exactly "magnetic",
      "electric" or "auxiliary"; for any other spelling `channel_obj` is
      never bound and `read_metadata` raises `UnboundLocalError`. */
  function ReopenChannelAsWritten(run: Node, name: string, given: string): (r: Result<Node>)
    requires run.Group? && name in run.members
    ensures r.Ok? <==> given in ["magnetic", "electric", "auxiliary"]
    ensures r.Ok? ==> r.value == run.members[name]
    ensures r.Err? ==> r.error == UnboundLocalError("channel_obj")
  {
    if given == "magnetic" || given == "electric" || given == "auxiliary" then Ok(run.members[name])
    else Err(UnboundLocalError("channel_obj"))
  }

  /** The `except` branch as evidently intended: the type is read as the
      main path reads it, ignoring case, and an unknown type raises the same
      `MTH5Error`. */
  function ReopenChannel(run: Node, name: string, given: string): (r: Result<Node>)
    requires run.Group? && name in run.members
    ensures r.Ok? <==> ParseChannelType(given).Some?
    ensures r.Ok? ==> r.value == run.members[name]
    ensures r.Err? ==> r.error == MTH5Error(BadChannelType(given))
  {
    if ParseChannelType(given).Some? then Ok(run.members[name])
    else Err(MTH5Error(BadChannelType(given)))
  }

  /** `add_channel` as its fallback branch intends: a taken name reopens the
      member already there, changing nothing, when the type is known; a new
      name is created and filled as above. */
  function AddChannel(run: Node, name: string, given: string, data: Option<nat>,
                      meta: ChannelMeta): (r: Change<Node, Node>)
    requires run.Group?
    ensures name in run.members ==> r.state == run
    ensures name in run.members ==> (r.result.Ok? <==> ParseChannelType(given).Some?)
    ensures name in run.members && r.result.Ok? ==> r.result.value == run.members[name]
    ensures name in run.members && r.result.Err? ==> r.result.error == MTH5Error(BadChannelType(given))
    ensures name !in run.members ==> r == AddChannelAsWritten(run, name, given, data, meta)
  {
    if name in run.members then Change(run, ReopenChannel(run, name, given))
    else FillChannel(run, name, given, SampleCount(data), meta)
  }
}

=== FILE: groups_facts.dfy ===
/** Properties of the group child rules that relate several calls. */
module GroupFacts {
  import opened Outcomes
  import opened Text
  import opened Summary
  import opened Groups

  /** Adding a station under a taken name is the same as not adding it:
      the second call returns what the first stored and changes nothing. */
  lemma AddStationIdempotent(m: Node, name: string)
    requires m.Group?
    ensures var once := AddStation(m, name);
            AddStation(once.state, name) == Change(once.state, once.result)
  {
  }

  /** A station just added (or already there) is what `get_station` finds. */
  lemma GetStationAfterAdd(m: Node, name: string)
    requires m.Group?
    ensures var added := AddStation(m, name);
            GetChild(added.state, name) == added.result
  {
  }

  /** Getting a station that was never added raises, and adding another
      station does not make it appear. */
  lemma GetStationMissing(m: Node, name: string, other: string)
    requires m.Group? && name !in m.members && other != name
    ensures GetChild(m, name) == Err(MTH5Error(NoSuchChild(name)))
    ensures GetChild(AddStation(m, other).state, name) == Err(MTH5Error(NoSuchChild(name)))
  {
  }

  /** Adding a run twice under one name is the same as adding it once. */
  lemma AddRunIdempotent(s: Node, name: string)
    requires s.Group?
    ensures var once := AddRun(s, name);
            AddRun(once.state, name) == Change(once.state, once.result)
  {
  }

  /** A run just added is what `get_run` finds: a run whose summary table
      holds only the default row. */
  lemma GetRunAfterAdd(s: Node, name: string)
    requires s.Group? && name !in s.members
    ensures var added := AddRun(s, name);
            && GetChild(added.state, name) == added.result
            && added.result.value.Group? && added.result.value.kind == Run
            && SummaryTable(added.result.value).Ok?
            && SummaryTable(added.result.value).value.rows == [DefaultRow(RunLayout)]
  {
  }

  /** Initializing a summary table twice raises the second time and leaves
      the first table as it was. */
  lemma InitializeTwiceRaises(g: Node)
    requires g.Group? && SummaryName !in g.members
    ensures var once := InitializeSummaryTable(g).state;
            InitializeSummaryTable(once) == Change(once, Err(ValueError(NameExists(SummaryName))))
  {
  }

  /** The first row appended to a freshly initialized summary table lands
      at index 1, after the default row. */
  lemma FirstSummaryRowLandsAtOne(g: Node, row: Record)
    requires g.Group? && SummaryName !in g.members
    requires ValidRecord(row) && row.layout == SummaryDefaults(g.kind).0 && SummaryDefaults(g.kind).1 >= 2
    ensures var init := InitializeSummaryTable(g).state;
            var added := AddSummaryRow(init, Ok(row));
            && added.result == Ok(1)
            && SummaryTable(added.state).Ok?
            && SummaryTable(added.state).value.rows == [DefaultRow(row.layout), row.values]
  {
    var init := InitializeSummaryTable(g).state;
    var t := SummaryTable(init).value;
    assert t.rows == [DefaultRow(row.layout)];
    var added := AddSummaryRow(init, Ok(row));
    assert SummaryGrew(init, added.state, row.values);
    var after := SummaryTable(added.state).value;
    assert after.rows == after.rows[..1] + [after.rows[1]];
  }

  /** The metadata of a channel that can be stored. */
  predicate AsciiMeta(meta: ChannelMeta) {
    IsAscii(meta.component) && IsAscii(meta.start) && IsAscii(meta.end)
    && IsAscii(meta.measurementType) && IsAscii(meta.units)
  }

  /** A new run has room for a channel of a known type and ASCII metadata. */
  lemma NewRunFitsChannel(name: string, given: string, size: nat, meta: ChannelMeta)
    requires name != SummaryName && ParseChannelType(given).Some? && AsciiMeta(meta)
    ensures ChannelFits(NewRun(), name, given, size, meta)
  {
  }

  /** Filling the first channel into a new run appends its entry after the
      default row. */
  lemma FirstChannelRows(name: string, given: string, size: nat, meta: ChannelMeta)
    requires name != SummaryName && ParseChannelType(given).Some? && AsciiMeta(meta)
    ensures var c := FillChannel(NewRun(), name, given, size, meta);
            && c.result.Ok?
            && SummaryTable(c.state).Ok?
            && SummaryTable(c.state).value.rows == [DefaultRow(RunLayout), TableEntry(meta, size).value.values]
  {
    var run := NewRun();
    NewRunFitsChannel(name, given, size, meta);
    FillChannelAppendsEntry(run, name, given, size, meta);
    var c := FillChannel(run, name, given, size, meta);
    var entry := TableEntry(meta, size).value.values;
    assert SummaryGrew(run, c.state, entry);
    var before := SummaryTable(run).value;
    var after := SummaryTable(c.state).value;
    assert before.rows == [DefaultRow(RunLayout)];
    assert after.rows[..1] == before.rows && after.rows[1] == entry;
    assert after.rows == after.rows[..1] + [after.rows[1]];
  }

  /** The first channel added to a new run: the run's summary table then
      holds the default row and the channel's table entry, in that order. */
  lemma FirstChannelOfNewRun(s: Node, run: string, name: string, given: string, data: Option<nat>,
                             meta: ChannelMeta)
    requires s.Group? && run !in s.members
    requires name != SummaryName && ParseChannelType(given).Some? && AsciiMeta(meta)
    ensures var r := AddRun(s, run).result.value;
            var c := AddChannel(r, name, given, data, meta);
            && c.result.Ok?
            && SummaryTable(c.state).Ok?
            && SummaryTable(c.state).value.rows
               == [DefaultRow(RunLayout), TableEntry(meta, SampleCount(data)).value.values]
  {
    var r := AddRun(s, run).result.value;
    assert r == NewRun();
    assert name !in r.members;
    FirstChannelRows(name, given, SampleCount(data), meta);
  }

  /** As written, adding a channel whose name is taken raises instead of
      returning the existing channel; the intended call returns it. Shown on
      a new run after one successful `add_channel`. */
  lemma AddChannelTwiceRaisesAsWritten(name: string, given: string, data: Option<nat>, meta: ChannelMeta)
    requires name != SummaryName && ParseChannelType(given).Some? && AsciiMeta(meta)
    ensures var first := AddChannel(NewRun(), name, given, data, meta);
            && first.result.Ok?
            && AddChannelAsWritten(first.state, name, given, data, meta).result == Err(ValueError(NameExists(name)))
            && AddChannel(first.state, name, given, data, meta) == Change(first.state, first.result)
  {
    var r := NewRun();
    NewRunFitsChannel(name, given, SampleCount(data), meta);
    FillChannelAppendsEntry(r, name, given, SampleCount(data), meta);
    FillChannelKeepsOthers(r, name, given, SampleCount(data), meta);
  }

  /** As written, the fallback reopens a channel only for a type spelt in
      lower case: "Electric", which the main path accepts, leaves
      `channel_obj` unbound. The intended fallback reopens the channel. */
  lemma ReopenCapitalisedRaisesAsWritten(name: string, data: Option<nat>, meta: ChannelMeta)
    requires name != SummaryName && AsciiMeta(meta)
    ensures var first := AddChannel(NewRun(), name, "Electric", data, meta);
            && first.result.Ok?
            && ReopenChannelAsWritten(first.state, name, "Electric") == Err(UnboundLocalError("channel_obj"))
            && ReopenChannel(first.state, name, "Electric") == first.result
  {
    assert Lower("Electric") == "electric";
    AddChannelTwiceRaisesAsWritten(name, "Electric", data, meta);
  }
}

=== FILE: outcomes.dfy ===
/** Failure-carrying results for the model of the MTH5 group containers.

    The Python code signals failure by raising; here every operation returns
    a `Result`, and operations that change a container return the container
    as it stands after the call together with that result (`Change`), because
    several of them have already changed the container when they raise. */
module Outcomes {

  datatype Option<+T> = None | Some(value: T)

  /** Why a `ValueError` was raised. */
  datatype ValueProblem =
    | LayoutMismatch              // add_row: row dtype differs from table dtype
    | NoSuchField(field: string)  // column name not in the compound dtype
    | NotAnInstant                // a value numpy cannot turn into a datetime64
    | BetweenNeedsSequence        // 'be' test with a scalar value
    | TestNotUnderstood(test: string)
    | BeyondMaxShape              // resize past the dataset's max_shape
    | NameExists(name: string)    // creating a group or dataset under a taken name

  /** Why an `MTH5Error` was raised. */
  datatype GroupProblem =
    | NoSuchChild(name: string)
    | BadChannelType(given: string)

  /** The exceptions the modelled code can raise. */
  datatype Error =
    | ValueError(problem: ValueProblem)
    | TypeError                   // numpy comparison between incompatible kinds
    | IndexError                  // index past the end of an array or list
    | KeyError(key: string)
    | UnicodeEncodeError          // str -> bytes of a non-ASCII text
    | UnboundLocalError(variable: string)
    | MTH5Error(why: GroupProblem)
    | MTH5TableError              // summary table wrapped around a non-dataset

  datatype Result<+T> = Ok(value: T) | Err(error: Error)

  /** A container after an operation, and what the operation returned or raised. */
  datatype Change<+S, +T> = Change(state: S, result: Result<T>)
}

=== FILE: standards.dfy ===
/** `StandardsGroup.summary_table_from_dict` (mth5/mth5_groups.py): fills
    the standards summary table, one row per attribute, from a dictionary of
    attribute descriptions. The projection of each description into a row is
    lossy: lists are joined with commas and `None` becomes the empty text. */
module StandardsTable {
  import opened Outcomes
  import opened Text
  import opened Summary

  /** A value of an attribute description, as Python hands it over. */
  datatype Entry = TextEntry(s: string) | FlagEntry(b: bool) | ListEntry(xs: seq<string>) | NoneEntry

  /** The list / `None` handling of lines 431-439: what reaches the row is a
      text or a flag. */
  function Project(e: Entry): (r: Entry)
    ensures r.TextEntry? || r.FlagEntry?
    ensures e.TextEntry? || e.FlagEntry? ==> r == e
    ensures e.ListEntry? ==> r == TextEntry(Join(e.xs))
    ensures e.NoneEntry? ==> r == TextEntry("")
  {
    match e
    case ListEntry(xs) => if |xs| == 0 then TextEntry("") else TextEntry(Join(xs))
    case NoneEntry => TextEntry("")
    case _ => e
  }

  /** The projection is lossy: an empty list, `None`, the empty text and a
      list holding one empty text all give the same cell. */
  lemma ProjectionForgets()
    ensures Project(ListEntry([])) == Project(NoneEntry) == Project(TextEntry(""))
    ensures Project(ListEntry([""])) == Project(NoneEntry)
  {
  }

  /** A non-empty list of comma-free items is recoverable from its cell text. */
  lemma ProjectionKeepsCommaFreeLists(xs: seq<string>)
    requires |xs| >= 1
    requires forall k :: 0 <= k < |xs| ==> CommaFree(xs[k])
    ensures Project(ListEntry(xs)).TextEntry? && Split(Project(ListEntry(xs)).s) == xs
  {
    SplitJoin(xs);
  }

  /** `str(b)`, the text a flag becomes in a byte field. */
  function FlagText(b: bool): string {
    if b then "True" else "False"
  }

  /** How `np.array([tuple], dtype)` stores one projected value in a field:
      text and flags into byte fields (ASCII, cut to width), flags into
      boolean fields. Other combinations are refused in the model. */
  function Coerce(ty: FieldType, e: Entry): (r: Result<Value>)
    ensures r.Ok? ==> Fits(ty, r.value)
    ensures ty.FixedBytes? && e.TextEntry? ==>
              (r.Ok? <==> IsAscii(e.s)) && (r.Err? ==> r.error == UnicodeEncodeError)
    ensures ty.FixedBytes? && e.TextEntry? && IsAscii(e.s) ==> r.Ok? && StoredAs(r.value, e.s, ty.width)
    ensures ty.FixedBytes? && e.FlagEntry? ==> r.Ok? && StoredAs(r.value, FlagText(e.b), ty.width)
    ensures ty.Boolean? && e.FlagEntry? ==> r == Ok(BoolVal(e.b))
    ensures !(ty.FixedBytes? && (e.TextEntry? || e.FlagEntry?)) && !(ty.Boolean? && e.FlagEntry?) ==> r == Err(TypeError)
  {
    match (ty, e)
    case (FixedBytes(w), TextEntry(s)) =>
      (match StoreText(s, w) case None => Err(UnicodeEncodeError) case Some(b) => Ok(BytesVal(b)))
    case (FixedBytes(w), FlagEntry(b)) =>
      (match StoreText(FlagText(b), w) case None => Err(UnicodeEncodeError) case Some(c) => Ok(BytesVal(c)))
    case (Boolean, FlagEntry(b)) => Ok(BoolVal(b))
    case _ => Err(TypeError)
  }

  /** Coerces `entries` field by field; the first refusal is raised. */
  function CoerceAll(layout: Layout, entries: seq<Entry>): (r: Result<seq<Value>>)
    requires |entries| == |layout|
    ensures r.Ok? <==> forall j :: 0 <= j < |layout| ==> Coerce(layout[j].ty, entries[j]).Ok?
    ensures r.Ok? ==> |r.value| == |layout|
    ensures r.Ok? ==> forall j :: 0 <= j < |layout| ==> Coerce(layout[j].ty, entries[j]) == Ok(r.value[j])
    decreases |layout|
  {
    if |layout| == 0 then Ok([])
    else match Coerce(layout[0].ty, entries[0])
      case Err(e) => Err(e)
      case Ok(v) =>
        match CoerceAll(layout[1..], entries[1..])
        case Err(e) => Err(e)
        case Ok(vs) => Ok([v] + vs)
  }

  /** The first field after the key column that the description lacks. */
  function MissingField(layout: Layout, attrs: map<string, Entry>, from: nat): (r: Option<string>)
    requires from <= |layout|
    ensures r.None? <==> forall j :: from <= j < |layout| ==> layout[j].name in attrs
    ensures r.Some? ==> r.value !in attrs
    ensures r.Some? ==> exists j :: from <= j < |layout| && layout[j].name == r.value
                                  && forall i :: from <= i < j ==> layout[i].name in attrs
    decreases |layout| - from
  {
    if from == |layout| then None
    else if layout[from].name !in attrs then Some(layout[from].name)
    else MissingField(layout, attrs, from + 1)
  }

  /** The values of one row before conversion: the key, then the
      description's projected value of each further field. */
  function RowEntries(layout: Layout, key: string, attrs: map<string, Entry>): (es: seq<Entry>)
    requires forall j :: 1 <= j < |layout| ==> layout[j].name in attrs
    ensures |es| == |layout|
    ensures |layout| > 0 ==> es[0] == TextEntry(key)
    ensures forall j :: 1 <= j < |layout| ==> es[j] == Project(attrs[layout[j].name])
  {
    seq(|layout|, j requires 0 <= j < |layout| => if j == 0 then TextEntry(key) else Project(attrs[layout[j].name]))
  }

  /** Lines 427-443: the row for one attribute. The key fills the first
      field, the description's projected values fill the rest by field name;
      a field the description lacks raises `KeyError`. */
  function BuildRow(layout: Layout, key: string, attrs: map<string, Entry>): (r: Result<Record>)
    requires ValidLayout(layout)
    ensures (exists j :: 1 <= j < |layout| && layout[j].name !in attrs) ==> r.Err? && r.error.KeyError?
    ensures MissingField(layout, attrs, 1).Some? ==> r == Err(KeyError(MissingField(layout, attrs, 1).value))
    ensures r.Ok? <==>
              && (forall j :: 1 <= j < |layout| ==> layout[j].name in attrs)
              && Coerce(layout[0].ty, TextEntry(key)).Ok?
              && (forall j :: 1 <= j < |layout| ==> Coerce(layout[j].ty, Project(attrs[layout[j].name])).Ok?)
    ensures r.Ok? ==> ValidRecord(r.value) && r.value.layout == layout
    ensures r.Ok? ==> Coerce(layout[0].ty, TextEntry(key)) == Ok(r.value.values[0])
    ensures r.Ok? ==> forall j :: 1 <= j < |layout| ==>
              layout[j].name in attrs && Coerce(layout[j].ty, Project(attrs[layout[j].name])) == Ok(r.value.values[j])
  {
    match MissingField(layout, attrs, 1)
    case Some(name) => Err(KeyError(name))
    case None =>
      match CoerceAll(layout, RowEntries(layout, key, attrs))
      case Err(e) => Err(e)
      case Ok(values) => Ok(Record(layout, values))
  }

  /** `row` is the row built for the attribute `item`. */
  predicate BuildsRow(layout: Layout, item: (string, map<string, Entry>), row: seq<Value>)
    requires ValidLayout(layout)
  {
    BuildRow(layout, item.0, item.1) == Ok(Record(layout, row))
  }

  /** Every attribute of `items` builds a row. */
  predicate AllBuild(layout: Layout, items: seq<(string, map<string, Entry>)>)
    requires ValidLayout(layout)
  {
    forall k :: 0 <= k < |items| ==> BuildRow(layout, items[k].0, items[k].1).Ok?
  }

  /** Every item builds exactly when the first one does and the rest do. */
  lemma AllBuildSplits(layout: Layout, items: seq<(string, map<string, Entry>)>)
    requires ValidLayout(layout) && |items| > 0
    ensures AllBuild(layout, items)
        <==> BuildRow(layout, items[0].0, items[0].1).Ok? && AllBuild(layout, items[1..])
  {
    if BuildRow(layout, items[0].0, items[0].1).Ok? && AllBuild(layout, items[1..]) {
      forall k | 0 <= k < |items|
        ensures BuildRow(layout, items[k].0, items[k].1).Ok?
      {
        if k > 0 {
          assert items[k] == items[1..][k - 1];
        }
      }
    }
  }

  /** `summary_table_from_dict` on the standards table, items in dictionary
      order. Each item appends one row; the first failure is raised and the
      rows appended before it stay. An empty dictionary changes nothing. */
  function SummaryTableFromDict(t: Table, items: seq<(string, map<string, Entry>)>): (r: Change<Table, ()>)
    requires Valid(t)
    ensures Valid(r.state) && r.state.layout == t.layout && r.state.maxRows == t.maxRows
    ensures |t.rows| <= |r.state.rows| <= |t.rows| + |items|
    ensures r.state.rows[..|t.rows|] == t.rows
    ensures r.result.Ok? <==> |r.state.rows| == |t.rows| + |items|
    ensures r.result.Ok? <==> AllBuild(t.layout, items) && |t.rows| + |items| <= t.maxRows
    decreases |items|
  {
    if |items| == 0 then Change(t, Ok(()))
    else
      AllBuildSplits(t.layout, items);
      match BuildRow(t.layout, items[0].0, items[0].1)
      case Err(e) => Change(t, Err(e))
      case Ok(row) =>
        var added := AddRow(t, row, None);
        if added.result.Err? then Change(t, Err(added.result.error))
        else
          SummaryTableFromDict(added.state, items[1..])
  }

  /** A failing call keeps the rows appended before the failure: every
      item before the failing one built its row, and the error is the
      failing item's, or `ValueError` when it met a full table. */
  lemma {:induction false} FromDictStopsAtFailure(t: Table, items: seq<(string, map<string, Entry>)>)
    requires Valid(t)
    ensures var r := SummaryTableFromDict(t, items);
            r.result.Err? ==> StopsAt(t, items, |r.state.rows|, r.result.error)
    decreases |items|
  {
    var r := SummaryTableFromDict(t, items);
    if |items| > 0 && r.result.Err? {
      match BuildRow(t.layout, items[0].0, items[0].1)
      case Err(e) =>
        assert items[..0] == [];
      case Ok(row) =>
        var added := AddRow(t, row, None);
        if added.result.Err? {
          assert items[..0] == [];
        } else {
          assert r == SummaryTableFromDict(added.state, items[1..]);
          FromDictStopsAtFailure(added.state, items[1..]);
          StopsAtLater(t, added.state, items, |r.state.rows|, r.result.error);
        }
    }
  }

  /** A call on `t` that ends with `n` rows failed with `e`: the items
      before the `k`-th built (`k` being the rows it appended), and the
      `k`-th either did not build, raising `e` from `BuildRow`, or met a
      full table, raising `ValueError`. */
  predicate StopsAt(t: Table, items: seq<(string, map<string, Entry>)>, n: nat, e: Error)
    requires ValidLayout(t.layout)
  {
    && |t.rows| <= n < |t.rows| + |items|
    && AllBuild(t.layout, items[..n - |t.rows|])
    && FailsOn(t, items[n - |t.rows|], n, e)
  }

  /** `item` did not build and `e` is `BuildRow`'s error, or it built and
      the table, holding `n` rows, was full. */
  predicate FailsOn(t: Table, item: (string, map<string, Entry>), n: nat, e: Error)
    requires ValidLayout(t.layout)
  {
    match BuildRow(t.layout, item.0, item.1)
    case Err(b) => e == b
    case Ok(_) => n == t.maxRows && e == ValueError(BeyondMaxShape)
  }

  /** A failure after the first item's row went in is a failure of the
      whole call, one item further on. */
  lemma StopsAtLater(t: Table, t': Table, items: seq<(string, map<string, Entry>)>, n: nat, e: Error)
    requires ValidLayout(t.layout) && |items| > 0 && BuildRow(t.layout, items[0].0, items[0].1).Ok?
    requires t'.layout == t.layout && t'.maxRows == t.maxRows && |t'.rows| == |t.rows| + 1
    requires StopsAt(t', items[1..], n, e)
    ensures StopsAt(t, items, n, e)
  {
    var k := n - |t'.rows|;
    assert AllBuild(t.layout, items[1..][..k]) && FailsOn(t', items[1..][k], n, e);
    assert n - |t.rows| == k + 1 && items[k + 1] == items[1..][k];
    FailsOnSameLayout(t, t', items[k + 1], n, e);
    AllBuildExtends(t.layout, items, k);
    assert AllBuild(t.layout, items[..n - |t.rows|]) && FailsOn(t, items[n - |t.rows|], n, e);
  }

  /** Whether an item fails on a table depends only on its layout and
      `max_shape`. */
  lemma FailsOnSameLayout(t: Table, t': Table, item: (string, map<string, Entry>), n: nat, e: Error)
    requires ValidLayout(t.layout) && t'.layout == t.layout && t'.maxRows == t.maxRows
    requires FailsOn(t', item, n, e)
    ensures FailsOn(t, item, n, e)
  {
  }

  /** The first item built and the `k` after it built: the first `k + 1`
      built. */
  lemma AllBuildExtends(layout: Layout, items: seq<(string, map<string, Entry>)>, k: nat)
    requires ValidLayout(layout) && k < |items| && BuildRow(layout, items[0].0, items[0].1).Ok?
    requires AllBuild(layout, items[1..][..k])
    ensures AllBuild(layout, items[..k + 1])
  {
    assert items[..k + 1][1..] == items[1..][..k];
    assert items[..k + 1][0] == items[0];
    AllBuildSplits(layout, items[..k + 1]);
  }

  /** Each of `rows` is the row built for the item in the same position. */
  predicate AllBuilt(layout: Layout, items: seq<(string, map<string, Entry>)>, rows: seq<seq<Value>>)
    requires ValidLayout(layout)
  {
    |rows| <= |items| && forall k :: 0 <= k < |rows| ==> BuildsRow(layout, items[k], rows[k])
  }

  /** Row by row, what `SummaryTableFromDict` appended is the row built for
      the item in the same position of the dictionary. */
  lemma {:induction false} FromDictAppendsBuiltRows(t: Table, items: seq<(string, map<string, Entry>)>)
    requires Valid(t)
    ensures AllBuilt(t.layout, items, SummaryTableFromDict(t, items).state.rows[|t.rows|..])
    decreases |items|
  {
    var r := SummaryTableFromDict(t, items);
    var n := |t.rows|;
    if |items| > 0 && BuildRow(t.layout, items[0].0, items[0].1).Ok? {
      var row := BuildRow(t.layout, items[0].0, items[0].1).value;
      var added := AddRow(t, row, None);
      if added.result.Ok? {
        assert r == SummaryTableFromDict(added.state, items[1..]);
        FromDictAppendsBuiltRows(added.state, items[1..]);
        SplitAfter(r.state.rows, n, row.values);
        AllBuiltCons(t.layout, items, row.values, r.state.rows[n + 1..]);
      }
    }
  }

  /** The rows from position `n` on are the row at `n`, then the rest. */
  lemma SplitAfter(rows: seq<seq<Value>>, n: nat, row: seq<Value>)
    requires n < |rows| && rows[..n + 1][n] == row
    ensures rows[n..] == [row] + rows[n + 1..]
  {
    assert rows[n..][0] == row;
    assert rows[n..][1..] == rows[n + 1..];
  }

  /** The first item's row followed by rows built for the later items are
      rows built for the whole dictionary. */
  lemma AllBuiltCons(layout: Layout, items: seq<(string, map<string, Entry>)>, row: seq<Value>, rest: seq<seq<Value>>)
    requires ValidLayout(layout) && |items| > 0
    requires BuildsRow(layout, items[0], row) && AllBuilt(layout, items[1..], rest)
    ensures AllBuilt(layout, items, [row] + rest)
  {
    var rows := [row] + rest;
    forall k | 0 <= k < |rows|
      ensures BuildsRow(layout, items[k], rows[k])
    {
      if k > 0 {
        assert items[k] == items[1..][k - 1];
        assert rows[k] == rest[k - 1];
      }
    }
  }

  /** The code as written: with an empty dictionary the loop never binds
      `index`, and the debug message at line 446 raises `UnboundLocalError`
      (the f-string is built whatever the log level). */
  function SummaryTableFromDictAsWritten(t: Table, items: seq<(string, map<string, Entry>)>): (r: Change<Table, ()>)
    requires Valid(t)
    ensures |items| == 0 ==> r == Change(t, Err(UnboundLocalError("index")))
    ensures |items| > 0 ==> r == SummaryTableFromDict(t, items)
  {
    if |items| == 0 then Change(t, Err(UnboundLocalError("index")))
    else SummaryTableFromDict(t, items)
  }

  /** The discrepancy: an empty dictionary raises as written, and is a no-op
      once `index` is not needed. */
  lemma EmptyDictRaisesAsWritten(t: Table)
    requires Valid(t)
    ensures SummaryTableFromDictAsWritten(t, []).result.Err?
    ensures SummaryTableFromDict(t, []) == Change(t, Ok(()))
  {
  }

  /** A list stored in a byte field that is wide enough comes back from
      the table as the same items once the cell is split at commas. */
  lemma ListCellRoundTrip(xs: seq<string>, width: nat)
    requires |xs| >= 1
    requires forall k :: 0 <= k < |xs| ==> CommaFree(xs[k])
    requires IsAscii(Join(xs)) && |Join(xs)| <= width
    requires |Join(xs)| == 0 || Join(xs)[|Join(xs)| - 1] != 0 as char
    ensures var c := Coerce(FixedBytes(width), Project(ListEntry(xs)));
            c.Ok? && c.value.BytesVal? && Split(Decode(c.value.b)) == xs
  {
    StoreTextRoundTrip(Join(xs), width);
    SplitJoin(xs);
  }
}

=== FILE: table.dfy ===
/** `MTH5Table` (mth5/mth5_groups.py): a summary table is a compound numpy
    dtype (an ordered list of named, typed fields) plus a one-dimensional
    array of rows of that dtype, stored in a resizable HDF5 dataset whose
    length may not pass its `max_shape`. */
module Summary {
  import opened Outcomes
  import opened Text

  // ---------------------------------------------------------------------
  // Layouts, values, rows
  // ---------------------------------------------------------------------

  /** The field kinds the summary tables use: `S<width>`, `np.float`,
      `np.int`, `np.bool_` and `h5py.ref_dtype`. */
  datatype FieldType = FixedBytes(width: nat) | Float64 | Int64 | Boolean | Reference

  datatype Field = Field(name: string, ty: FieldType)

  /** A compound dtype. */
  type Layout = seq<Field>

  /** One cell. Floats are ordered opaque values (no NaN, no rounding). */
  datatype Value =
    | BytesVal(b: bytes)
    | IntVal(i: int)
    | FloatVal(x: real)
    | BoolVal(p: bool)
    | RefVal(handle: nat)
    | NullRef

  /** A cell as numpy hands it back; a byte cell comes without the NUL
      padding of its field. */
  predicate Fits(ty: FieldType, v: Value) {
    match ty
    case FixedBytes(w) => v.BytesVal? && |v.b| <= w && (|v.b| == 0 || v.b[|v.b| - 1] != 0)
    case Float64 => v.FloatVal?
    case Int64 => v.IntVal?
    case Boolean => v.BoolVal?
    case Reference => v.RefVal? || v.NullRef?
  }

  /** `v` is the byte cell an `S<width>` field shows for the text `s`. */
  predicate StoredAs(v: Value, s: string, width: nat) {
    v.BytesVal? && Shown(s, width, v.b)
  }

  predicate Conforms(layout: Layout, values: seq<Value>) {
    |values| == |layout| && forall j :: 0 <= j < |values| ==> Fits(layout[j].ty, values[j])
  }

  /** numpy refuses repeated field names; every table here has a field. */
  predicate ValidLayout(layout: Layout) {
    && |layout| >= 1
    && forall a, b :: 0 <= a < b < |layout| ==> layout[a].name != layout[b].name
  }

  /** A one-row numpy array carrying its own dtype, as `add_row` receives it. */
  datatype Record = Record(layout: Layout, values: seq<Value>)

  predicate ValidRecord(r: Record) {
    ValidLayout(r.layout) && Conforms(r.layout, r.values)
  }

  /** The dataset behind an `MTH5Table`: dtype, rows, and `max_shape[0]`. */
  datatype Table = Table(layout: Layout, rows: seq<seq<Value>>, maxRows: nat)

  predicate Valid(t: Table) {
    && ValidLayout(t.layout)
    && |t.rows| <= t.maxRows
    && forall i :: 0 <= i < |t.rows| ==> Conforms(t.layout, t.rows[i])
  }

  /** The value HDF5 fills a freshly created dataset with. */
  function FillValue(ty: FieldType): (v: Value)
    ensures Fits(ty, v)
  {
    match ty
    case FixedBytes(_) => BytesVal([])
    case Float64 => FloatVal(0.0)
    case Int64 => IntVal(0)
    case Boolean => BoolVal(false)
    case Reference => NullRef
  }

  /** Text stored into an `S<width>` field is a cell of that field. */
  lemma StoredTextFits(s: string, width: nat)
    requires IsAscii(s)
    ensures StoreText(s, width).Some? && Fits(FixedBytes(width), BytesVal(StoreText(s, width).value))
  {
  }

  function DefaultRow(layout: Layout): (row: seq<Value>)
    ensures Conforms(layout, row)
  {
    seq(|layout|, j requires 0 <= j < |layout| => FillValue(layout[j].ty))
  }

  /** `create_dataset(name, (1,), maxshape=(maxRows,), dtype=layout)`: the
      table starts with one row, filled with the default values. */
  function Create(layout: Layout, maxRows: nat): (r: Result<Table>)
    requires ValidLayout(layout)
    ensures r.Ok? <==> maxRows >= 1
    ensures r.Err? ==> r.error == ValueError(BeyondMaxShape)
    ensures r.Ok? ==> Valid(r.value) && r.value.layout == layout && r.value.maxRows == maxRows
    ensures r.Ok? ==> |r.value.rows| == 1
    ensures r.Ok? ==> forall j :: 0 <= j < |layout| ==> r.value.rows[0][j] == FillValue(layout[j].ty)
  {
    if maxRows == 0 then Err(ValueError(BeyondMaxShape))
    else Ok(Table(layout, [DefaultRow(layout)], maxRows))
  }

  function Nrows(t: Table): nat {
    |t.rows|
  }

  /** `check_dtypes`: the row's dtype is the table's, field for field. */
  function CheckDtypes(t: Table, other: Layout): (same: bool)
    ensures same <==> |other| == |t.layout| && forall j :: 0 <= j < |other| ==> other[j] == t.layout[j]
  {
    t.layout == other
  }

  // ---------------------------------------------------------------------
  // add_row
  // ---------------------------------------------------------------------

  /** `add_row(row, index)`. A row of another dtype raises `ValueError`.
      Without an index the dataset grows by one and the row lands at the
      old end; growth past `max_shape` raises `ValueError`. With an index,
      that row is overwritten; an index past the end raises `IndexError`.
      Returns the index written. A failing call leaves the table as it was. */
  function AddRow(t: Table, row: Record, index: Option<nat>): (r: Change<Table, nat>)
    ensures r.state.layout == t.layout && r.state.maxRows == t.maxRows
    ensures Valid(t) && ValidRecord(row) ==> Valid(r.state)
    ensures r.result.Err? ==> r.state == t
    ensures !CheckDtypes(t, row.layout) ==> r.result == Err(ValueError(LayoutMismatch))
    ensures CheckDtypes(t, row.layout) && index.None? ==>
              if |t.rows| < t.maxRows then
                && r.result == Ok(|t.rows|)
                && |r.state.rows| == |t.rows| + 1
                && r.state.rows[..|t.rows|] == t.rows
                && r.state.rows[|t.rows|] == row.values
              else r.result == Err(ValueError(BeyondMaxShape))
    ensures CheckDtypes(t, row.layout) && index.Some? ==>
              if index.value < |t.rows| then
                && r.result == Ok(index.value)
                && |r.state.rows| == |t.rows|
                && r.state.rows[index.value] == row.values
                && forall i :: 0 <= i < |t.rows| && i != index.value ==> r.state.rows[i] == t.rows[i]
              else r.result == Err(IndexError)
  {
    if !CheckDtypes(t, row.layout) then Change(t, Err(ValueError(LayoutMismatch)))
    else match index
      case None =>
        if |t.rows| < t.maxRows then Change(t.(rows := t.rows + [row.values]), Ok(|t.rows|))
        else Change(t, Err(ValueError(BeyondMaxShape)))
      case Some(i) =>
        if i < |t.rows| then Change(t.(rows := t.rows[i := row.values]), Ok(i))
        else Change(t, Err(IndexError))
  }

  /** A freshly created table already holds its default row, so the first
      appended row lands at index 1. */
  lemma FirstAppendLandsAtOne(layout: Layout, maxRows: nat, row: Record)
    requires ValidLayout(layout) && maxRows >= 2 && row.layout == layout
    ensures Create(layout, maxRows).Ok?
    ensures var t := Create(layout, maxRows).value;
            var r := AddRow(t, row, None);
            && r.result == Ok(1) && |r.state.rows| == 2
            && r.state.rows[0] == DefaultRow(layout) && r.state.rows[1] == row.values
  {
    var t := Create(layout, maxRows).value;
    assert t.rows[0] == DefaultRow(layout);
  }

  /** Overwriting the same index twice is the same as overwriting it once. */
  lemma OverwriteIdempotent(t: Table, row: Record, i: nat)
    ensures var once := AddRow(t, row, Some(i));
            AddRow(once.state, row, Some(i)).state == once.state
  {
    var once := AddRow(t, row, Some(i));
    if CheckDtypes(t, row.layout) && i < |t.rows| {
      assert once.state.rows == t.rows[i := row.values];
    }
  }

  // ---------------------------------------------------------------------
  // locate
  // ---------------------------------------------------------------------

  datatype Cmp = Eq | Lt | Le | Gt | Ge

  /** The tests `locate` accepts: the five comparisons and `be`. */
  datatype Test = Compare(op: Cmp) | Between

  function TestNamed(name: string): (r: Option<Test>)
    ensures name == "eq" ==> r == Some(Compare(Eq))
    ensures name == "lt" ==> r == Some(Compare(Lt))
    ensures name == "le" ==> r == Some(Compare(Le))
    ensures name == "gt" ==> r == Some(Compare(Gt))
    ensures name == "ge" ==> r == Some(Compare(Ge))
    ensures name == "be" ==> r == Some(Between)
    ensures name !in {"eq", "lt", "le", "gt", "ge", "be"} ==> r.None?
  {
    if name == "eq" then Some(Compare(Eq))
    else if name == "lt" then Some(Compare(Lt))
    else if name == "le" then Some(Compare(Le))
    else if name == "gt" then Some(Compare(Gt))
    else if name == "ge" then Some(Compare(Ge))
    else if name == "be" then Some(Between)
    else None
  }

  /** One Python value handed to `locate`: a str, or a value of a cell's kind. */
  datatype Item = Str(s: string) | Val(v: Value)

  /** The `value` argument: a scalar, or a list / tuple / array. */
  datatype Query = One(item: Item) | Many(items: seq<Item>)

  /** A `datetime64`: an instant, or Not-a-Time. */
  datatype Time = NaT | At(instant: int)

  /** Columns `locate` compares as instants rather than raw bytes. */
  const TimeColumns: set<string> := {"start", "end", "start_date", "end_date"}

  /** numpy's parse of a cell or value as `datetime64`: an empty byte string
      is NaT; anything else goes to `parse`, which stands for numpy's date
      parser and answers `None` for text it refuses. Non-byte values are
      refused. */
  function ToTime(v: Value, parse: bytes -> Option<Time>): Option<Time> {
    match v
    case BytesVal(b) => if b == [] then Some(NaT) else parse(b)
    case _ => None
  }

  /** What one cell is compared as. */
  datatype Key = Raw(v: Value) | Moment(t: Time)

  predicate Numeric(v: Value) {
    v.IntVal? || v.FloatVal? || v.BoolVal?
  }

  function Num(v: Value): real
    requires Numeric(v)
  {
    match v
    case IntVal(i) => i as real
    case FloatVal(x) => x
    case BoolVal(p) => if p then 1.0 else 0.0
  }

  /** numpy's order on byte strings: lexicographic, a proper prefix first. */
  predicate BytesLess(a: bytes, b: bytes)
    decreases |a|
  {
    if |b| == 0 then false
    else if |a| == 0 then true
    else a[0] < b[0] || (a[0] == b[0] && BytesLess(a[1..], b[1..]))
  }

  /** Element-wise `==`: numbers by value, byte strings up to trailing NULs,
      NaT equal to nothing, values of different kinds unequal. */
  predicate KeyEq(a: Key, b: Key) {
    match (a, b)
    case (Raw(BytesVal(x)), Raw(BytesVal(y))) => StripNul(x) == StripNul(y)
    case (Raw(x), Raw(y)) => if Numeric(x) && Numeric(y) then Num(x) == Num(y) else x == y
    case (Moment(At(x)), Moment(At(y))) => x == y
    case _ => false
  }

  /** Element-wise `<`: byte strings without their trailing NULs; false
      whenever NaT is involved. */
  predicate KeyLess(a: Key, b: Key) {
    match (a, b)
    case (Raw(BytesVal(x)), Raw(BytesVal(y))) => BytesLess(StripNul(x), StripNul(y))
    case (Raw(x), Raw(y)) => Numeric(x) && Numeric(y) && Num(x) < Num(y)
    case (Moment(At(x)), Moment(At(y))) => x < y
    case _ => false
  }

  predicate NumericField(ty: FieldType) {
    ty.Float64? || ty.Int64? || ty.Boolean?
  }

  /** Whether numpy can order a column of field type `ty` (taken as instants
      when `time`) against `k`; when it cannot, `<` and friends raise
      `TypeError`. */
  predicate Orderable(ty: FieldType, time: bool, k: Key) {
    if time then k.Moment?
    else k.Raw? && ((ty.FixedBytes? && k.v.BytesVal?) || (NumericField(ty) && Numeric(k.v)))
  }

  /** The per-row condition a search selects on. */
  datatype Criterion = Match(op: Cmp, k: Key) | Inside(lo: Key, hi: Key)

  predicate Meets(cell: Key, c: Criterion) {
    match c
    case Match(Eq, k) => KeyEq(cell, k)
    case Match(Lt, k) => KeyLess(cell, k)
    case Match(Le, k) => KeyLess(cell, k) || KeyEq(cell, k)
    case Match(Gt, k) => KeyLess(k, cell)
    case Match(Ge, k) => KeyLess(k, cell) || KeyEq(cell, k)
    case Inside(lo, hi) => KeyLess(lo, cell) && KeyLess(cell, hi)
  }

  predicate Ascending(r: seq<nat>) {
    forall a, b :: 0 <= a < b < |r| ==> r[a] < r[b]
  }

  /** `np.where(mask)[0]`: the ascending indices of the keys meeting `c`. */
  function Select(keys: seq<Key>, c: Criterion): (r: seq<nat>)
    ensures Ascending(r)
    ensures forall k :: k in r ==> k < |keys|
    ensures forall i :: 0 <= i < |keys| ==> (i in r <==> Meets(keys[i], c))
  {
    if |keys| == 0 then []
    else
      var last := |keys| - 1;
      var before := Select(keys[..last], c);
      assert forall i :: 0 <= i < last ==> keys[..last][i] == keys[i];
      forall a | 0 <= a < |before|
        ensures before[a] < last
      {
        assert before[a] in before;
      }
      if Meets(keys[last], c) then before + [last] else before
  }

  /** Index of the field named `name`. */
  function FieldIndex(layout: Layout, name: string): (r: Option<nat>)
    ensures r.Some? ==> r.value < |layout| && layout[r.value].name == name
    ensures r.None? <==> forall j :: 0 <= j < |layout| ==> layout[j].name != name
  {
    if |layout| == 0 then None
    else if layout[0].name == name then Some(0)
    else match FieldIndex(layout[1..], name)
      case None => None
      case Some(j) => Some(j + 1)
  }

  /** A cell as it is compared: an instant in a time column, else itself. */
  function CellKey(v: Value, time: bool, parse: bytes -> Option<Time>): Option<Key> {
    if time then
      match ToTime(v, parse)
      case None => None
      case Some(m) => Some(Moment(m))
    else Some(Raw(v))
  }

  /** The whole column as keys; `astype(np.datetime64)` fails on one bad cell. */
  function ColumnKeys(t: Table, j: nat, time: bool, parse: bytes -> Option<Time>): (r: Option<seq<Key>>)
    requires Valid(t) && j < |t.layout|
    ensures !time ==> r.Some? && |r.value| == |t.rows|
    ensures !time ==> forall i :: 0 <= i < |t.rows| ==> r.value[i] == Raw(t.rows[i][j])
    ensures time ==>
              (r.Some? <==> forall i :: 0 <= i < |t.rows| ==> t.rows[i][j].BytesVal? && ToTime(t.rows[i][j], parse).Some?)
    ensures time && r.Some? ==>
              |r.value| == |t.rows| && forall i :: 0 <= i < |t.rows| ==> r.value[i] == Moment(ToTime(t.rows[i][j], parse).value)
  {
    if forall i :: 0 <= i < |t.rows| ==> CellKey(t.rows[i][j], time, parse).Some? then
      Some(seq(|t.rows|, i requires 0 <= i < |t.rows| => CellKey(t.rows[i][j], time, parse).value))
    else None
  }

  /** `value` after the str -> bytes step at the top of `locate`. */
  datatype Operand = Single(k: Key) | Bounds(items: seq<Item>)

  /** A list, tuple or array handed to a comparison other than `be` is
      broadcast against the column by numpy; that case is outside the model. */
  predicate Broadcastless(column: string, value: Query, test: string) {
    value.Many? && column !in TimeColumns ==> TestNamed(test).None? || TestNamed(test) == Some(Between)
  }

  /** What a scalar value is compared as: a str becomes its bytes, and on a
      time column the value becomes an instant. None when either step
      refuses it. */
  function ItemKey(it: Item, time: bool, parse: bytes -> Option<Time>): Option<Key> {
    var raw :=
      match it
      case Str(s) => (match AsBytes(s) case None => None case Some(b) => Some(BytesVal(b)))
      case Val(v) => Some(v);
    match raw
    case None => None
    case Some(v) =>
      if !time then Some(Raw(v))
      else match ToTime(v, parse) case None => None case Some(m) => Some(Moment(m))
  }

  /** One bound of a `be` test. As written, bounds are compared as given: a
      str bound meets a byte column (or a number) and numpy raises
      `TypeError`. With `converted`, each bound goes through the same str ->
      bytes -> instant steps a scalar value does. */
  function BoundKey(it: Item, time: bool, parse: bytes -> Option<Time>, converted: bool): (r: Result<Key>)
    ensures converted ==> (r.Ok? <==> ItemKey(it, time, parse).Some?)
    ensures converted && r.Ok? ==> ItemKey(it, time, parse) == Some(r.value)
    ensures !converted ==> (r.Ok? <==> it.Val?) && (r.Ok? ==> r.value == Raw(it.v))
  {
    if !converted then
      match it
      case Str(_) => Err(TypeError)
      case Val(v) => Ok(Raw(v))
    else
      var raw :=
        match it
        case Str(s) => (match AsBytes(s) case None => Err(UnicodeEncodeError) case Some(b) => Ok(BytesVal(b)))
        case Val(v) => Ok(v);
      match raw
      case Err(e) => Err(e)
      case Ok(v) =>
        if time then (match ToTime(v, parse) case None => Err(ValueError(NotAnInstant)) case Some(m) => Ok(Moment(m)))
        else Ok(Raw(v))
  }

  /** Everything `locate` does before `np.where`, in the source's order:
      str -> bytes, field lookup, the column as instants, the value as an
      instant, then the test dispatch. Yields the column's keys and the
      per-row criterion. */
  function Probe(t: Table, column: string, value: Query, test: string,
                 parse: bytes -> Option<Time>, converted: bool): (r: Result<(seq<Key>, Criterion)>)
    requires Valid(t)
    requires Broadcastless(column, value, test)
    ensures value.One? && value.item.Str? && !IsAscii(value.item.s) ==> r == Err(UnicodeEncodeError)
    ensures !(value.One? && value.item.Str? && !IsAscii(value.item.s)) && FieldIndex(t.layout, column).None? ==>
              r == Err(ValueError(NoSuchField(column)))
    ensures r.Ok? ==> FieldIndex(t.layout, column).Some? && TestNamed(test).Some?
    ensures r.Ok? ==>
              var j := FieldIndex(t.layout, column).value;
              |r.value.0| == |t.rows| &&
              forall i :: 0 <= i < |t.rows| ==> CellKey(t.rows[i][j], column in TimeColumns, parse) == Some(r.value.0[i])
    ensures r.Ok? && test == "be" ==> value.Many? && |value.items| >= 2 && r.value.1.Inside?
    ensures r.Ok? && test != "be" ==> value.One? && r.value.1.Match? && TestNamed(test) == Some(Compare(r.value.1.op))
    ensures r.Ok? && test != "be" ==> ItemKey(value.item, column in TimeColumns, parse) == Some(r.value.1.k)
    ensures r.Ok? && test == "be" && converted ==>
              && ItemKey(value.items[0], column in TimeColumns, parse) == Some(r.value.1.lo)
              && ItemKey(value.items[1], column in TimeColumns, parse) == Some(r.value.1.hi)
    ensures r.Ok? && test == "be" && !converted ==>
              && value.items[0].Val? && value.items[1].Val?
              && r.value.1 == Inside(Raw(value.items[0].v), Raw(value.items[1].v))
  {
    var operand :=
      match value
      case One(Str(s)) => (match AsBytes(s) case None => Err(UnicodeEncodeError) case Some(b) => Ok(Single(Raw(BytesVal(b)))))
      case One(Val(v)) => Ok(Single(Raw(v)))
      case Many(items) => Ok(Bounds(items));
    if operand.Err? then Err(operand.error)
    else match FieldIndex(t.layout, column)
      case None => Err(ValueError(NoSuchField(column)))
      case Some(j) =>
        var time := column in TimeColumns;
        match ColumnKeys(t, j, time, parse)
        case None => Err(ValueError(NotAnInstant))
        case Some(keys) =>
          var operand' :=
            if !time then Ok(operand.value)
            else match operand.value
              case Single(Raw(v)) =>
                (match ToTime(v, parse) case None => Err(ValueError(NotAnInstant)) case Some(m) => Ok(Single(Moment(m))))
              case Single(k) => Ok(Single(k))
              case Bounds(items) =>
                if converted && test == "be" then Ok(Bounds(items)) else Err(ValueError(NotAnInstant));
          if operand'.Err? then Err(operand'.error)
          else
            var ty := t.layout[j].ty;
            match TestNamed(test)
            case None => Err(ValueError(TestNotUnderstood(test)))
            case Some(Compare(op)) =>
              (match operand'.value
               case Single(k) =>
                 if op != Eq && !Orderable(ty, time, k) then Err(TypeError) else Ok((keys, Match(op, k)))
               case Bounds(_) => Err(TypeError))
            case Some(Between) =>
              match operand'.value
              case Single(_) => Err(ValueError(BetweenNeedsSequence))
              case Bounds(items) =>
                // `test_array > value[0]` is evaluated before `value[1]` is read
                if |items| == 0 then Err(IndexError)
                else
                  var lo := BoundKey(items[0], time, parse, converted);
                  if lo.Err? then Err(lo.error)
                  else if !Orderable(ty, time, lo.value) then Err(TypeError)
                  else if |items| < 2 then Err(IndexError)
                  else
                    var hi := BoundKey(items[1], time, parse, converted);
                    if hi.Err? then Err(hi.error)
                    else if !Orderable(ty, time, hi.value) then Err(TypeError)
                    else Ok((keys, Inside(lo.value, hi.value)))
  }

  /** `locate(column, value, test)`, with the bounds of `be` converted like
      a scalar value (README, Findings). The result is exactly the
      ascending indices of the rows whose cell meets the test. */
  function Locate(t: Table, column: string, value: Query, test: string,
                  parse: bytes -> Option<Time>): (r: Result<seq<nat>>)
    requires Valid(t)
    requires Broadcastless(column, value, test)
    ensures r.Ok? <==> Probe(t, column, value, test, parse, true).Ok?
    ensures r.Ok? ==> Ascending(r.value) && forall k :: k in r.value ==> k < |t.rows|
    ensures r.Ok? ==>
              var p := Probe(t, column, value, test, parse, true).value;
              forall i :: 0 <= i < |t.rows| ==> (i in r.value <==> Meets(p.0[i], p.1))
  {
    match Probe(t, column, value, test, parse, true)
    case Err(e) => Err(e)
    case Ok((keys, c)) => Ok(Select(keys, c))
  }

  /** `locate` exactly as written: `be` bounds are used unconverted. */
  function LocateAsWritten(t: Table, column: string, value: Query, test: string,
                           parse: bytes -> Option<Time>): (r: Result<seq<nat>>)
    requires Valid(t)
    requires Broadcastless(column, value, test)
    ensures r.Ok? <==> Probe(t, column, value, test, parse, false).Ok?
    ensures r.Ok? ==> Ascending(r.value) && forall k :: k in r.value ==> k < |t.rows|
    ensures r.Ok? ==>
              var p := Probe(t, column, value, test, parse, false).value;
              forall i :: 0 <= i < |t.rows| ==> (i in r.value <==> Meets(p.0[i], p.1))
  {
    match Probe(t, column, value, test, parse, false)
    case Err(e) => Err(e)
    case Ok((keys, c)) => Ok(Select(keys, c))
  }
}

=== FILE: table_facts.dfy ===
/** Properties of `locate` and `add_row` that relate several calls, or a
    call to the plain meaning of a test. */
module SummaryFacts {
  import opened Outcomes
  import opened Text
  import opened Summary

  /** numpy's byte order never puts a string before itself. */
  lemma {:induction false} BytesLessIrreflexive(a: bytes)
    ensures !BytesLess(a, a)
    decreases |a|
  {
    if |a| > 0 {
      BytesLessIrreflexive(a[1..]);
    }
  }

  /** Keys that compare equal are not strictly ordered either way. */
  lemma EqualKeysUnordered(a: Key, b: Key)
    requires KeyEq(a, b)
    ensures !KeyLess(a, b) && !KeyLess(b, a)
  {
    if a.Raw? && b.Raw? && a.v.BytesVal? && b.v.BytesVal? {
      BytesLessIrreflexive(StripNul(a.v.b));
    }
  }

  /** Every raw cell equals itself (there is no NaN among the modelled floats). */
  lemma RawKeyReflexive(v: Value)
    ensures KeyEq(Raw(v), Raw(v))
  {
  }

  /** `nrows` after `add_row`: an append returns the old count and adds one
      row; an overwrite keeps the count; a failure keeps the table. */
  lemma AddRowCountsRows(t: Table, row: Record, index: Option<nat>)
    ensures var r := AddRow(t, row, index);
            && (r.result.Ok? && index.None? ==> r.result.value == Nrows(t) && Nrows(r.state) == Nrows(t) + 1)
            && (index.Some? ==> Nrows(r.state) == Nrows(t))
            && (r.result.Err? ==> Nrows(r.state) == Nrows(t))
  {
  }

  /** An `eq` search on an ordinary column selects exactly the rows whose
      cell equals the value. */
  lemma LocateEqOnRawColumn(t: Table, column: string, v: Value, parse: bytes -> Option<Time>)
    requires Valid(t) && column !in TimeColumns && FieldIndex(t.layout, column).Some?
    ensures var r := Locate(t, column, One(Val(v)), "eq", parse);
            var j := FieldIndex(t.layout, column).value;
            && r.Ok?
            && forall i :: 0 <= i < |t.rows| ==> (i in r.value <==> KeyEq(Raw(t.rows[i][j]), Raw(v)))
  {
    var j := FieldIndex(t.layout, column).value;
    var keys := ColumnKeys(t, j, false, parse);
    assert keys.Some?;
    var p := Probe(t, column, One(Val(v)), "eq", parse, true);
    assert p == Ok((keys.value, Match(Eq, Raw(v))));
  }

  /** A str value is searched for as its ASCII bytes. */
  lemma LocateStrIsBytes(t: Table, column: string, s: string, test: string, parse: bytes -> Option<Time>)
    requires Valid(t) && IsAscii(s)
    ensures Locate(t, column, One(Str(s)), test, parse)
         == Locate(t, column, One(Val(BytesVal(AsBytes(s).value))), test, parse)
  {
  }

  /** On a time column, two spellings of the same instant (say "2020-1-2"
      and "2020-01-02") locate the same rows. */
  lemma LocateTimeBySameInstant(t: Table, column: string, a: bytes, b: bytes, test: string,
                                parse: bytes -> Option<Time>)
    requires Valid(t) && column in TimeColumns
    requires |a| > 0 && |b| > 0 && parse(a) == parse(b)
    ensures Locate(t, column, One(Val(BytesVal(a))), test, parse)
         == Locate(t, column, One(Val(BytesVal(b))), test, parse)
  {
    assert ToTime(BytesVal(a), parse) == ToTime(BytesVal(b), parse);
  }

  /** After an append, an `eq` search on an ordinary column for the new
      row's own cell finds the new index. */
  lemma AppendThenLocate(t: Table, row: Record, column: string, parse: bytes -> Option<Time>)
    requires Valid(t) && ValidRecord(row) && row.layout == t.layout && |t.rows| < t.maxRows
    requires column !in TimeColumns && FieldIndex(t.layout, column).Some?
    ensures var t' := AddRow(t, row, None).state;
            var j := FieldIndex(t.layout, column).value;
            var r := Locate(t', column, One(Val(row.values[j])), "eq", parse);
            r.Ok? && |t.rows| in r.value
  {
    var t' := AddRow(t, row, None).state;
    var j := FieldIndex(t.layout, column).value;
    LocateEqOnRawColumn(t', column, row.values[j], parse);
    assert t'.rows[|t.rows|] == row.values;
    RawKeyReflexive(row.values[j]);
  }

  /** `be` is exclusive at both bounds: a selected cell equals neither. */
  lemma BetweenExcludesBounds(t: Table, column: string, lo: Value, hi: Value, parse: bytes -> Option<Time>)
    requires Valid(t) && column !in TimeColumns && FieldIndex(t.layout, column).Some?
    ensures var r := Locate(t, column, Many([Val(lo), Val(hi)]), "be", parse);
            var j := FieldIndex(t.layout, column).value;
            r.Ok? ==> forall i :: 0 <= i < |t.rows| && i in r.value ==>
                        && KeyLess(Raw(lo), Raw(t.rows[i][j])) && KeyLess(Raw(t.rows[i][j]), Raw(hi))
                        && !KeyEq(Raw(t.rows[i][j]), Raw(lo)) && !KeyEq(Raw(t.rows[i][j]), Raw(hi))
  {
    var r := Locate(t, column, Many([Val(lo), Val(hi)]), "be", parse);
    var j := FieldIndex(t.layout, column).value;
    if r.Ok? {
      var keys := ColumnKeys(t, j, false, parse).value;
      var p := Probe(t, column, Many([Val(lo), Val(hi)]), "be", parse, true);
      assert p == Ok((keys, Inside(Raw(lo), Raw(hi))));
      forall i | 0 <= i < |t.rows| && i in r.value
        ensures && KeyLess(Raw(lo), Raw(t.rows[i][j])) && KeyLess(Raw(t.rows[i][j]), Raw(hi))
                && !KeyEq(Raw(t.rows[i][j]), Raw(lo)) && !KeyEq(Raw(t.rows[i][j]), Raw(hi))
      {
        assert keys[i] == Raw(t.rows[i][j]);
        if KeyEq(Raw(t.rows[i][j]), Raw(lo)) {
          EqualKeysUnordered(Raw(t.rows[i][j]), Raw(lo));
        }
        if KeyEq(Raw(t.rows[i][j]), Raw(hi)) {
          EqualKeysUnordered(Raw(t.rows[i][j]), Raw(hi));
        }
      }
    }
  }

  /** Every test name other than the six raises; `bt`, which the docstring
      lists, is one of them. Once the value and the column have passed the
      earlier steps, the error is the `ValueError` of the final branch. */
  lemma UnknownTestRaises(t: Table, column: string, value: Query, test: string, parse: bytes -> Option<Time>)
    requires Valid(t) && Broadcastless(column, value, test)
    requires test !in {"eq", "lt", "le", "gt", "ge", "be"}
    ensures Locate(t, column, value, test, parse).Err?
    ensures LocateAsWritten(t, column, value, test, parse).Err?
    ensures column !in TimeColumns && FieldIndex(t.layout, column).Some?
            && !(value.One? && value.item.Str? && !IsAscii(value.item.s)) ==>
              && Locate(t, column, value, test, parse) == Err(ValueError(TestNotUnderstood(test)))
              && LocateAsWritten(t, column, value, test, parse) == Err(ValueError(TestNotUnderstood(test)))
  {
  }

  /** `be` with a scalar value raises; once the value and the column have
      passed the earlier steps, it is the `ValueError` asking for a pair. */
  lemma BetweenNeedsList(t: Table, column: string, item: Item, parse: bytes -> Option<Time>)
    requires Valid(t)
    ensures Locate(t, column, One(item), "be", parse).Err?
    ensures LocateAsWritten(t, column, One(item), "be", parse).Err?
    ensures column !in TimeColumns && FieldIndex(t.layout, column).Some? && ItemKey(item, false, parse).Some? ==>
              && Locate(t, column, One(item), "be", parse) == Err(ValueError(BetweenNeedsSequence))
              && LocateAsWritten(t, column, One(item), "be", parse) == Err(ValueError(BetweenNeedsSequence))
  {
  }

  /** The five comparisons on an ordinary column: with a value numpy can
      order against the column (any value for `eq`), the search succeeds and
      selects exactly the rows whose cell compares as the test says. */
  lemma LocateCompareOnRawColumn(t: Table, column: string, v: Value, test: string, op: Cmp,
                                 parse: bytes -> Option<Time>)
    requires Valid(t) && column !in TimeColumns && FieldIndex(t.layout, column).Some?
    requires TestNamed(test) == Some(Compare(op))
    requires op == Eq || Orderable(t.layout[FieldIndex(t.layout, column).value].ty, false, Raw(v))
    ensures var r := Locate(t, column, One(Val(v)), test, parse);
            var j := FieldIndex(t.layout, column).value;
            && r.Ok?
            && r == LocateAsWritten(t, column, One(Val(v)), test, parse)
            && forall i :: 0 <= i < |t.rows| ==> (i in r.value <==> Meets(Raw(t.rows[i][j]), Match(op, Raw(v))))
  {
    var j := FieldIndex(t.layout, column).value;
    var keys := ColumnKeys(t, j, false, parse);
    assert keys.Some?;
    assert Probe(t, column, One(Val(v)), test, parse, true) == Ok((keys.value, Match(op, Raw(v))));
    assert Probe(t, column, One(Val(v)), test, parse, false) == Ok((keys.value, Match(op, Raw(v))));
  }

  /** `be` on an ordinary column with two bounds numpy can order against the
      column: the search succeeds and selects exactly the rows whose cell
      lies strictly between them. */
  lemma LocateBetweenOnRawColumn(t: Table, column: string, lo: Value, hi: Value, parse: bytes -> Option<Time>)
    requires Valid(t) && column !in TimeColumns && FieldIndex(t.layout, column).Some?
    requires Orderable(t.layout[FieldIndex(t.layout, column).value].ty, false, Raw(lo))
    requires Orderable(t.layout[FieldIndex(t.layout, column).value].ty, false, Raw(hi))
    ensures var r := Locate(t, column, Many([Val(lo), Val(hi)]), "be", parse);
            var j := FieldIndex(t.layout, column).value;
            && r.Ok?
            && r == LocateAsWritten(t, column, Many([Val(lo), Val(hi)]), "be", parse)
            && forall i :: 0 <= i < |t.rows| ==>
                 (i in r.value <==> KeyLess(Raw(lo), Raw(t.rows[i][j])) && KeyLess(Raw(t.rows[i][j]), Raw(hi)))
  {
    var j := FieldIndex(t.layout, column).value;
    var keys := ColumnKeys(t, j, false, parse);
    assert keys.Some?;
    var q := Many([Val(lo), Val(hi)]);
    assert Probe(t, column, q, "be", parse, true) == Ok((keys.value, Inside(Raw(lo), Raw(hi))));
    assert Probe(t, column, q, "be", parse, false) == Ok((keys.value, Inside(Raw(lo), Raw(hi))));
  }

  /** The five comparisons on a time column whose cells all parse, with a
      value that parses: the search succeeds and compares instants. */
  lemma LocateCompareOnTimeColumn(t: Table, column: string, v: bytes, m: Time, test: string, op: Cmp,
                                  parse: bytes -> Option<Time>)
    requires Valid(t) && column in TimeColumns && FieldIndex(t.layout, column).Some?
    requires ColumnKeys(t, FieldIndex(t.layout, column).value, true, parse).Some?
    requires ToTime(BytesVal(v), parse) == Some(m)
    requires TestNamed(test) == Some(Compare(op))
    ensures var r := Locate(t, column, One(Val(BytesVal(v))), test, parse);
            var j := FieldIndex(t.layout, column).value;
            && r.Ok?
            && forall i :: 0 <= i < |t.rows| ==>
                 ToTime(t.rows[i][j], parse).Some?
                 && (i in r.value <==> Meets(Moment(ToTime(t.rows[i][j], parse).value), Match(op, Moment(m))))
  {
    var j := FieldIndex(t.layout, column).value;
    var keys := ColumnKeys(t, j, true, parse).value;
    assert Probe(t, column, One(Val(BytesVal(v))), test, parse, true) == Ok((keys, Match(op, Moment(m))));
  }

  /** numpy compares byte strings without their trailing NULs: searching a
      column holding `b'a'` for `b'a\x00'` finds the row. */
  lemma TrailingNulsIgnored()
    ensures var t := Table([Field("id", FixedBytes(5))], [[BytesVal([97])]], 10);
            Locate(t, "id", One(Val(BytesVal([97, 0]))), "eq", FirstByteInstant) == Ok([0])
  {
    var t := Table([Field("id", FixedBytes(5))], [[BytesVal([97])]], 10);
    assert Valid(t);
    assert FieldIndex(t.layout, "id") == Some(0);
    assert "id" !in TimeColumns;
    assert StripNul([97, 0]) == [97];
    assert StripNul([97]) == [97];
    var keys := ColumnKeys(t, 0, false, FirstByteInstant);
    assert keys.Some? && |keys.value| == 1 && keys.value[0] == Raw(BytesVal([97]));
    assert keys.value == [Raw(BytesVal([97]))];
    assert Select([Raw(BytesVal([97]))], Match(Eq, Raw(BytesVal([97, 0])))) == [0];
  }

  /** The correction of `be` changes nothing for the other tests. */
  lemma LocateAgreesOffBetween(t: Table, column: string, value: Query, test: string, parse: bytes -> Option<Time>)
    requires Valid(t) && Broadcastless(column, value, test) && test != "be"
    ensures Locate(t, column, value, test, parse) == LocateAsWritten(t, column, value, test, parse)
  {
    assert Probe(t, column, value, test, parse, true) == Probe(t, column, value, test, parse, false);
  }

  /** A toy date parser for the counterexamples: the first byte is the instant. */
  function FirstByteInstant(b: bytes): Option<Time> {
    if |b| == 0 then None else Some(At(b[0] as int))
  }

  /** As written, `be` cannot search a time column: the list of bounds is
      handed whole to `np.datetime64`, which raises. Converted bound by bound,
      the same search selects the row strictly between the bounds. */
  lemma BetweenOnTimeColumnRaisesAsWritten()
    ensures var t := Table([Field("start", FixedBytes(32))], [[BytesVal([50])]], 10);
            var q := Many([Val(BytesVal([49])), Val(BytesVal([51]))]);
            && LocateAsWritten(t, "start", q, "be", FirstByteInstant) == Err(ValueError(NotAnInstant))
            && Locate(t, "start", q, "be", FirstByteInstant) == Ok([0])
  {
    var t := Table([Field("start", FixedBytes(32))], [[BytesVal([50])]], 10);
    assert Valid(t);
    assert FieldIndex(t.layout, "start") == Some(0);
    var keys := ColumnKeys(t, 0, true, FirstByteInstant);
    assert CellKey(t.rows[0][0], true, FirstByteInstant) == Some(Moment(At(50)));
    assert keys.Some? && |keys.value| == 1 && keys.value[0] == Moment(At(50));
    assert keys.value == [Moment(At(50))];
    assert Select([Moment(At(50))], Inside(Moment(At(49)), Moment(At(51)))) == [0];
  }

  lemma AsciiLetter(c: char)
    requires c as int < 128 && c != 0 as char
    ensures AsBytes([c]) == Some([c as int as byte])
  {
    assert IsAscii([c]);
    var e := EncodeAscii([c]).value;
    assert |e| == 1 && e[0] == c as int as byte;
    assert e == [c as int as byte];
  }

  /** As written, str bounds of `be` are not turned into bytes and numpy
      refuses to order bytes against str; converted, they search as bytes. */
  lemma BetweenStrBoundsRaiseAsWritten()
    ensures var t := Table([Field("id", FixedBytes(5))], [[BytesVal([98])]], 10);
            var q := Many([Str("a"), Str("c")]);
            && LocateAsWritten(t, "id", q, "be", FirstByteInstant) == Err(TypeError)
            && Locate(t, "id", q, "be", FirstByteInstant) == Ok([0])
  {
    var t := Table([Field("id", FixedBytes(5))], [[BytesVal([98])]], 10);
    assert Valid(t);
    assert FieldIndex(t.layout, "id") == Some(0);
    assert "id" !in TimeColumns;
    AsciiLetter('a');
    AsciiLetter('c');
    var keys := ColumnKeys(t, 0, false, FirstByteInstant);
    assert keys.Some? && |keys.value| == 1 && keys.value[0] == Raw(BytesVal([98]));
    assert keys.value == [Raw(BytesVal([98]))];
    assert BytesLess([97], [98]) && BytesLess([98], [99]);
    assert Select([Raw(BytesVal([98]))], Inside(Raw(BytesVal([97])), Raw(BytesVal([99])))) == [0];
  }

  /** As written, `be` reads and compares the first bound before it reads
      the second: an empty list raises `IndexError`, and a first bound the
      column cannot be ordered against raises `TypeError` even when the
      second bound is missing. */
  lemma BetweenFirstBoundComparedFirstAsWritten(t: Table, column: string, items: seq<Item>, parse: bytes -> Option<Time>)
    requires Valid(t) && FieldIndex(t.layout, column).Some? && column !in TimeColumns
    ensures |items| == 0 ==> LocateAsWritten(t, column, Many(items), "be", parse) == Err(IndexError)
    ensures |items| > 0 && (items[0].Str? || !Orderable(t.layout[FieldIndex(t.layout, column).value].ty, false, Raw(items[0].v))) ==>
              LocateAsWritten(t, column, Many(items), "be", parse) == Err(TypeError)
    ensures |items| == 1 && items[0].Val? && Orderable(t.layout[FieldIndex(t.layout, column).value].ty, false, Raw(items[0].v)) ==>
              LocateAsWritten(t, column, Many(items), "be", parse) == Err(IndexError)
  {
    assert TestNamed("be") == Some(Between);
    var j := FieldIndex(t.layout, column).value;
    assert ColumnKeys(t, j, false, parse).Some?;
  }
}

=== FILE: text.dfy ===
/** Text and byte-string handling the group code relies on: numpy's fixed
    width byte fields (ASCII encoding, silent truncation, trailing NUL
    padding), `str.lower`, `','.join`, and `str.split(sep)[0]`. */
module Text {
  import opened Outcomes

  newtype byte = x: int | 0 <= x < 256

  type bytes = seq<byte>

  // ---------------------------------------------------------------------
  // str <-> bytes
  // ---------------------------------------------------------------------

  predicate IsAscii(s: string) {
    forall i :: 0 <= i < |s| ==> s[i] as int < 128
  }

  /** Python's ASCII codec: defined only when every character is ASCII. */
  function EncodeAscii(s: string): (r: Option<bytes>)
    ensures r.Some? <==> IsAscii(s)
    ensures r.Some? ==> |r.value| == |s|
    ensures r.Some? ==> forall i :: 0 <= i < |s| ==> r.value[i] as int == s[i] as int
  {
    if IsAscii(s) then Some(seq(|s|, i requires 0 <= i < |s| => s[i] as int as byte))
    else None
  }

  /** Reading bytes back as text, one character per byte. */
  function Decode(b: bytes): string {
    seq(|b|, i requires 0 <= i < |b| => b[i] as int as char)
  }

  lemma EncodeDecode(s: string)
    requires IsAscii(s)
    ensures EncodeAscii(s).Some? && Decode(EncodeAscii(s).value) == s
  {
  }

  /** numpy hands back a fixed-width byte field without its trailing NUL
      padding: the longest prefix that does not end in a zero byte. */
  function StripNul(b: bytes): (r: bytes)
    ensures |r| <= |b| && r == b[..|r|]
    ensures |r| == 0 || r[|r| - 1] != 0
    ensures forall i :: |r| <= i < |b| ==> b[i] == 0
  {
    if |b| == 0 || b[|b| - 1] != 0 then b else StripNul(b[..|b| - 1])
  }

  /** Cutting a byte string to a field of `width` bytes: the first `width`
      bytes, or all of them when they fit. */
  function Truncate(b: bytes, width: nat): (r: bytes)
    ensures |r| == if |b| <= width then |b| else width
    ensures r == b[..|r|]
  {
    if |b| <= width then b else b[..width]
  }

  /** `b` is what a byte field of `limit` bytes shows for the text `s`: the
      codes of the first characters of `s`, up to the limit, less the NULs at
      the end. */
  predicate Shown(s: string, limit: nat, b: bytes) {
    && |b| <= limit && |b| <= |s|
    && (forall i :: 0 <= i < |b| ==> b[i] as int == s[i] as int)
    && (forall i :: |b| <= i < |s| && i < limit ==> s[i] == 0 as char)
    && (|b| == 0 || b[|b| - 1] != 0)
  }

  /** `np.bytes_(s)`: a str as a numpy byte string, which drops trailing
      NULs like every numpy byte scalar. */
  function AsBytes(s: string): (r: Option<bytes>)
    ensures r.Some? <==> IsAscii(s)
    ensures r.Some? ==> Shown(s, |s|, r.value)
  {
    match EncodeAscii(s)
    case None => None
    case Some(b) => Some(StripNul(b))
  }

  /** A str stored into, then read back from, an `S<width>` field. */
  function StoreText(s: string, width: nat): (r: Option<bytes>)
    ensures r.Some? <==> IsAscii(s)
    ensures r.Some? ==> Shown(s, width, r.value)
  {
    match EncodeAscii(s)
    case None => None
    case Some(b) => Some(StripNul(Truncate(b, width)))
  }

  /** Text that fits its field and does not end in NUL survives storage. */
  lemma StoreTextRoundTrip(s: string, width: nat)
    requires IsAscii(s) && |s| <= width
    requires |s| == 0 || s[|s| - 1] != 0 as char
    ensures StoreText(s, width).Some? && Decode(StoreText(s, width).value) == s
  {
    var b := EncodeAscii(s).value;
    assert |b| == |s|;
    assert Truncate(b, width) == b;
    assert |b| == 0 || b[|b| - 1] != 0 by {
      if |b| > 0 {
        assert b[|b| - 1] as int == s[|s| - 1] as int;
      }
    }
    assert StripNul(b) == b;
    EncodeDecode(s);
  }

  // ---------------------------------------------------------------------
  // str.lower on the ASCII letters
  // ---------------------------------------------------------------------

  function LowerChar(c: char): char {
    if 'A' <= c <= 'Z' then (c as int + 32) as char else c
  }

  /** `s.lower()` on ASCII letters: no capital is left, every other
      character stays, and each capital becomes its small letter. */
  function Lower(s: string): (r: string)
    ensures |r| == |s|
    ensures forall i :: 0 <= i < |r| ==> !('A' <= r[i] <= 'Z')
    ensures forall i :: 0 <= i < |s| && !('A' <= s[i] <= 'Z') ==> r[i] == s[i]
    ensures forall i :: 0 <= i < |s| && 'A' <= s[i] <= 'Z' ==> r[i] as int == s[i] as int + 32
  {
    seq(|s|, i requires 0 <= i < |s| => LowerChar(s[i]))
  }

  lemma LowerIdempotent(s: string)
    ensures Lower(Lower(s)) == Lower(s)
  {
  }

  // ---------------------------------------------------------------------
  // ','.join and its inverse
  // ---------------------------------------------------------------------

  /** `','.join(xs)`. */
  function Join(xs: seq<string>): (r: string)
    ensures |xs| == 0 ==> r == ""
  {
    if |xs| == 0 then ""
    else if |xs| == 1 then xs[0]
    else xs[0] + "," + Join(xs[1..])
  }

  /** `s.split(',')`: never empty. */
  function Split(s: string): (r: seq<string>)
    ensures |r| >= 1
    decreases |s|
  {
    if |s| == 0 then [""]
    else
      var rest := Split(s[1..]);
      if s[0] == ',' then [""] + rest else [[s[0]] + rest[0]] + rest[1..]
  }

  predicate CommaFree(s: string) {
    forall i :: 0 <= i < |s| ==> s[i] != ','
  }

  lemma {:induction false} SplitCommaFree(x: string)
    requires CommaFree(x)
    ensures Split(x) == [x]
    decreases |x|
  {
    if |x| > 0 {
      SplitCommaFree(x[1..]);
      assert [x[0]] + x[1..] == x;
    }
  }

  lemma {:induction false} SplitAfterComma(x: string, y: string)
    requires CommaFree(x)
    ensures Split(x + "," + y) == [x] + Split(y)
    decreases |x|
  {
    if |x| == 0 {
      assert (x + "," + y)[1..] == y;
    } else {
      assert (x + "," + y)[1..] == x[1..] + "," + y;
      SplitAfterComma(x[1..], y);
      assert [x[0]] + x[1..] == x;
    }
  }

  /** Joining comma-free items loses nothing: splitting gives them back. */
  lemma {:induction false} SplitJoin(xs: seq<string>)
    requires |xs| >= 1
    requires forall k :: 0 <= k < |xs| ==> CommaFree(xs[k])
    ensures Split(Join(xs)) == xs
    decreases |xs|
  {
    if |xs| == 1 {
      SplitCommaFree(xs[0]);
    } else {
      SplitJoin(xs[1..]);
      SplitAfterComma(xs[0], Join(xs[1..]));
      assert [xs[0]] + xs[1..] == xs;
    }
  }

  // ---------------------------------------------------------------------
  // s.split(sep)[0]
  // ---------------------------------------------------------------------

  predicate OccursAt(s: string, i: nat, sep: string) {
    i + |sep| <= |s| && s[i..i + |sep|] == sep
  }

  /** `s.split(sep)[0]`: the text before the first occurrence of `sep`, or
      all of `s` when `sep` does not occur. Python refuses an empty `sep`. */
  function SplitHead(s: string, sep: string): (r: string)
    requires |sep| > 0
    ensures |r| <= |s| && r == s[..|r|]
    ensures |r| < |s| ==> OccursAt(s, |r|, sep)
    ensures forall j :: 0 <= j < |r| ==> !OccursAt(s, j, sep)
  {
    s[..FirstOccurrence(s, sep, 0)]
  }

  function FirstOccurrence(s: string, sep: string, from: nat): (k: nat)
    requires |sep| > 0 && from <= |s|
    requires forall j :: 0 <= j < from ==> !OccursAt(s, j, sep)
    ensures from <= k <= |s|
    ensures k < |s| ==> OccursAt(s, k, sep)
    ensures forall j :: 0 <= j < k ==> !OccursAt(s, j, sep)
    decreases |s| - from
  {
    if from == |s| then |s|
    else if OccursAt(s, from, sep) then from
    else FirstOccurrence(s, sep, from + 1)
  }

  /** Cutting at the first occurrence of a separator twice cuts nothing more. */
  lemma SplitHeadIdempotent(s: string, sep: string)
    requires |sep| > 0
    ensures SplitHead(SplitHead(s, sep), sep) == SplitHead(s, sep)
  {
    var r := SplitHead(s, sep);
    var r' := SplitHead(r, sep);
    if |r'| < |r| {
      assert OccursAt(r, |r'|, sep);
      assert r[|r'|..|r'| + |sep|] == s[|r'|..|r'| + |sep|];
      assert OccursAt(s, |r'|, sep);
    }
  }
  /** A name followed by the separator, where the name never contains the
      separator's first character, splits back into that name. */
  lemma SplitHeadSuffix(p: string, sep: string)
    requires |sep| > 0
    requires forall i :: 0 <= i < |p| ==> p[i] != sep[0]
    ensures SplitHead(p + sep, sep) == p
  {
    var s := p + sep;
    var r := SplitHead(s, sep);
    assert OccursAt(s, |p|, sep) by {
      assert s[|p|..|p| + |sep|] == sep;
    }
    assert forall j :: 0 <= j < |p| ==> !OccursAt(s, j, sep) by {
      forall j | 0 <= j < |p|
        ensures !OccursAt(s, j, sep)
      {
        assert s[j] == p[j] != sep[0];
      }
    }
  }

  /** Without the separator's first character, nothing is split off. */
  lemma SplitHeadAbsent(s: string, sep: string)
    requires |sep| > 0
    requires forall i :: 0 <= i < |s| ==> s[i] != sep[0]
    ensures SplitHead(s, sep) == s
  {
    assert forall j :: 0 <= j < |s| ==> !OccursAt(s, j, sep) by {
      forall j | 0 <= j < |s|
        ensures !OccursAt(s, j, sep)
      {
        assert s[j] != sep[0];
      }
    }
  }
}
